=== FILE: README.md ===
# Incremental reading: metric configuration and document selection

This project models the decision logic of the "roaming mode incremental reading"
plugin for SiYuan. Each document gets a priority from user-defined, weighted metrics.
The next document to read is drawn from a query's candidates, with a chance that grows
with its priority. The plugin also records visits and stores metric values as block
attributes.

The model has six modules:

- `Wrappers`: `Option` (a JavaScript `undefined`) and `Result` (a thrown error with its message).
- `IncrementalConfig` (`src/models/IncrementalConfig.ts`):
  - the metric list and the default metrics;
  - the weighted-average priority;
  - add, remove and update of metrics, each followed by proportional renormalisation of the weights to 100.
- `RandomDocConfig` (`src/models/RandomDocConfig.ts`): the review and filter modes, and the defaults a new configuration holds after its constructor runs.
- `Roulette` (`rouletteWheelSelection` in `src/service/IncrementalReviewer.ts`): fitness-proportionate choice, with `Math.random()` passed in as a draw `u` in [0, 1).
- `Numerals`: decimal text for integers, and a reader that inverts it. For safe integers (magnitude below 2^53) this is the text `Number.prototype.toString` writes.
- `IncrementalReviewer` (`src/service/IncrementalReviewer.ts`), with these parts:
  - the filter clause;
  - reading metric values and visit counts;
  - clamping and writing a metric;
  - recording a visit;
  - resetting visits;
  - the candidate-count branching of `getRandomDoc`.

Numbers are exact reals, so `sum == 100` after renormalisation is an exact statement.

The kernel is modelled as a store from block id to a map of attribute names to text:

- A block missing from the store is one the kernel answers with an error response.
- `getBlockAttrs` does not throw on such a response. The code then reads from the response object itself, which holds none of the plugin's attributes.
- `setBlockAttrs` on such a block writes nothing.

SQL answers are inputs to the model. `CandidateQuery`, `Admits` and `Answers` state what the candidate query asks for:

- documents in scope, by the filter clause;
- when visited documents are excluded, only those with no visit recorded;
- at most 100 of them.

`parseFloat`, `parseInt` and `toFixed(1)` are function parameters. Lemmas that need a fact about one of them take it as a precondition, for example that `parseFloat("5.0")` is 5.

Where the code's comments and the code differ, the model follows the code:

- `normalizeWeights` is documented as making the weights sum to 100, but the code leaves them alone when their total is not positive. The invariant proved for every sequence of mutations is therefore "the total is 100 or not positive" (`WeightsNormalized`).
- The "exclude today's visited documents" option excludes every document with a non-empty visit count, whatever the day. Only `resetTodayVisits` clears the count. The model states exactly that.
- `IncrementalReviewer.ts` imports `../models/ProgressiveConfig` and reads `progressiveConfigId`. Neither is among the modelled files. The model uses `IncrementalConfig.ts` and `incrementalConfigId` in their place.

## Model

| member | source | states |
|---|---|---|
| IncrementalConfig.DefaultMetrics | src/models/IncrementalConfig.ts:58-82 | exactly three metrics in order, importance 40, urgency 30 and difficulty 30, each of value 5, with weights summing to 100 |
| IncrementalConfig.DefaultMetricsNormalized | src/models/IncrementalConfig.ts:58-82 | renormalising the default configuration changes nothing |
| IncrementalConfig.CalculatePriority | src/models/IncrementalConfig.ts:89-104 | 0 when the weights of the metrics the document has values for are not positive in total; otherwise priority times that weight equals the weighted sum of the present values |
| IncrementalConfig.PresentWeightIsTotal | src/models/IncrementalConfig.ts:94-99 | the denominator is the total weight of the sub-list of configured metrics the document has a value for |
| IncrementalConfig.WeightedValueIsDot | src/models/IncrementalConfig.ts:94-99 | the numerator is the sum of value times weight over that same sub-list |
| IncrementalConfig.PriorityIsWeightedAverage | src/models/IncrementalConfig.ts:94-103 | the priority equals the plain weighted average over the sub-list of configured metrics the document has a value for; absent metrics add to neither sum |
| IncrementalConfig.PriorityBounds | src/models/IncrementalConfig.ts:89-104 | with non-negative weights, the priority lies between any lower and upper bound of the present values |
| IncrementalConfig.PriorityFromSumBounds | src/models/IncrementalConfig.ts:103 | when the weighted sum lies between lo and hi times the summed weight, the quotient returned for a positive summed weight lies in [lo, hi] |
| IncrementalConfig.PriorityInRange | src/models/IncrementalConfig.ts:84-104 | present values on the 0..10 scale and non-negative weights give a priority on the 0..10 scale |
| IncrementalConfig.PriorityOfUniformValues | src/models/IncrementalConfig.ts:89-104 | a document whose present values all equal v has priority v when the present weight is positive |
| IncrementalConfig.PresentWeightAllPresent | src/models/IncrementalConfig.ts:94-99 | when every configured metric has a value, the denominator is the total configured weight |
| IncrementalConfig.PriorityScaleInvariant | src/models/IncrementalConfig.ts:89-104 | multiplying every weight by one positive factor leaves every document's priority unchanged |
| IncrementalConfig.NormalizationFactor | src/models/IncrementalConfig.ts:147-156 | the factor is positive, and it turns a positive total into 100 |
| IncrementalConfig.NormalizeWeights | src/models/IncrementalConfig.ts:147-156 | every weight is scaled by 100/total and all other fields are kept; a positive total becomes 100; a non-positive total or a total of 100 leaves the list unchanged |
| IncrementalConfig.NormalizePreservesRatios | src/models/IncrementalConfig.ts:147-156 | every pair of weights keeps its ratio |
| IncrementalConfig.NormalizeIdempotent | src/models/IncrementalConfig.ts:147-156 | normalising twice is normalising once |
| IncrementalConfig.NormalizePreservesPriority | src/models/IncrementalConfig.ts:147-156 | normalisation never changes a document's priority |
| IncrementalConfig.AddMetric | src/models/IncrementalConfig.ts:117-120 | the list grows by one: the old metrics in order, then the new one, all renormalised together; a positive total becomes 100 |
| IncrementalConfig.WithoutId | src/models/IncrementalConfig.ts:126 | the result holds exactly the metrics whose id differs, and no more of them than the input |
| IncrementalConfig.WithoutIdAppend | src/models/IncrementalConfig.ts:126 | filtering distributes over concatenation, so the kept metrics stay in their relative order |
| IncrementalConfig.RemoveMetric | src/models/IncrementalConfig.ts:125-128 | the kept metrics are renormalised in order; no metric with the id remains; a positive remaining total becomes 100 |
| IncrementalConfig.RemoveAbsentId | src/models/IncrementalConfig.ts:125-128 | removing an id no metric has only renormalises |
| IncrementalConfig.AddThenRemove | src/models/IncrementalConfig.ts:117-128 | adding a metric with a fresh id, then removing it, gives back the original metrics with their weights in the original proportions, summing to 100 when the original total was positive |
| IncrementalConfig.FindIndex | src/models/IncrementalConfig.ts:134 | the first index whose metric has the id, or none exactly when no metric has it |
| IncrementalConfig.ApplyUpdate | src/models/IncrementalConfig.ts:136 | the object spread: every field the update supplies with a defined value takes that value, every other field is kept |
| IncrementalConfig.UpdateMetric | src/models/IncrementalConfig.ts:133-142 | an unknown id changes nothing; without a weight, only the first match changes and nothing is renormalised; with a weight, the updated list is renormalised and a positive total becomes 100 |
| IncrementalConfig.UpdateWithoutWeightIdempotent | src/models/IncrementalConfig.ts:133-142 | an update with no weight that keeps the id has the same effect applied twice as once |
| IncrementalConfig.TotalWeightOfUpdate | src/models/IncrementalConfig.ts:136-140 | replacing one metric changes the total by exactly the difference of the two weights |
| IncrementalConfig.ApplyOpNormalized | src/models/IncrementalConfig.ts:117-156 | each add, remove or update keeps the weights summing to 100 (or to a non-positive total) |
| IncrementalConfig.ApplyOpsNormalized | src/models/IncrementalConfig.ts:117-156 | any sequence of add, remove and update operations keeps that invariant |
| RandomDocConfig.FilterModeValueInjective | src/models/RandomDocConfig.ts:58-63 | the two filter modes are stored as different strings, so comparing stored strings compares modes |
| RandomDocConfig.Construct | src/models/RandomDocConfig.ts:134-138 | afterwards filter mode, root id and the exclusion flag are all set; given values are kept; the exclusion flag is on unless it was explicitly false; no other field changes |
| RandomDocConfig.ExcludesVisited | src/service/IncrementalReviewer.ts:99 | the `if` on the exclusion flag is taken only when the flag is true: a missing or false flag counts as off |
| RandomDocConfig.ConstructIdempotent | src/models/RandomDocConfig.ts:134-138 | running the constructor body again changes nothing |
| RandomDocConfig.NewRandomDocConfig | src/models/RandomDocConfig.ts:104-138 | a fresh configuration has notebook mode, an empty root id, exclusion on, incremental review, config id "incremental_config" and no notebook |
| Roulette.UniformIndex | src/service/IncrementalReviewer.ts:393 | Math.floor(u * n) is an index below n, within one of u * n |
| Roulette.RouletteWheelSelection | src/service/IncrementalReviewer.ts:387-411 | the returned id is that of a listed item; with a positive total it is the first item whose running sum reaches u times the total; with a zero total it is the uniform index |
| Roulette.WheelChoiceUnique | src/service/IncrementalReviewer.ts:387-411 | the draw determines the choice |
| Roulette.FallbackNeedsNegativeTotal | src/service/IncrementalReviewer.ts:409-410 | the last-item fallback is reached only when the total is negative, never with exact arithmetic over non-negative priorities |
| Roulette.PrefixSumMonotone | src/service/IncrementalReviewer.ts:401-404 | with non-negative priorities the running sum never decreases |
| Roulette.SelectionInterval | src/service/IncrementalReviewer.ts:397-407 | with non-negative priorities and a positive total, item i is chosen exactly when u times the total falls in its slice of the running sums, whose width is its priority |
| Roulette.ZeroPriorityNeverChosen | src/service/IncrementalReviewer.ts:400-407 | an item of priority 0 is never chosen, except the first item on a draw of exactly 0 |
| Numerals.NatToStringRoundTrip | src/service/IncrementalReviewer.ts:299 | reading the decimal digits of a natural number gives it back |
| Numerals.IntToString | src/service/IncrementalReviewer.ts:299 | the text is decimal digits, preceded by a minus sign exactly for negative integers |
| Numerals.IntToStringRoundTrip | src/service/IncrementalReviewer.ts:295-299 | reading the decimal text of any integer gives it back |
| IncrementalReviewer.MetricKeyInjective | src/service/IncrementalReviewer.ts:249 | distinct metric ids use distinct attributes |
| IncrementalReviewer.MetricKeyNotVisitCount | src/service/IncrementalReviewer.ts:249-295 | no metric's attribute is the visit-count attribute, so visits and metric writes never touch each other's data |
| IncrementalReviewer.AttrsOf | src/service/IncrementalReviewer.ts:238-239 | a read of a known block yields its attributes; a read of an unknown block yields none of the plugin's attributes |
| IncrementalReviewer.AttrOr | src/service/IncrementalReviewer.ts:249 | a missing or empty attribute gives the fallback, any other gives the stored text |
| IncrementalReviewer.SetAttr | src/api/kernel-api.ts:109-114 | a one-attribute write: only that attribute of that block changes; an unknown block is left alone |
| IncrementalReviewer.BuildFilterCondition | src/service/IncrementalReviewer.ts:416-429 | the root clause exactly in root mode with a root chosen; the notebook clause exactly in notebook mode (also when no mode is set) with a notebook chosen; the empty clause otherwise |
| IncrementalReviewer.ClausesDiffer | src/service/IncrementalReviewer.ts:422-427 | the root clause and the notebook clause are never empty and never equal |
| IncrementalReviewer.DefaultConfigUnrestricted | src/service/IncrementalReviewer.ts:416-429 | a freshly constructed configuration yields the empty filter clause, since no notebook is chosen |
| IncrementalReviewer.RootModeIgnoresNotebook | src/service/IncrementalReviewer.ts:422-427 | in root mode the notebook setting does not affect the clause |
| IncrementalReviewer.NotebookModeIgnoresRoot | src/service/IncrementalReviewer.ts:422-427 | in notebook mode the root setting does not affect the clause |
| IncrementalReviewer.BuildCandidateQuery | src/service/IncrementalReviewer.ts:93-121 | the candidate query carries the configuration's filter clause, excludes visited documents exactly when the option is on, and asks for at most 100 documents; apart from scope and block type, it admits exactly the known blocks, and when the option is on only those with no visit recorded |
| IncrementalReviewer.GetDocPriorityData | src/service/IncrementalReviewer.ts:236-253 | one entry for every configured metric and no other; a stored non-empty attribute is parsed; a missing or empty one reads as parseFloat("5.0") |
| IncrementalReviewer.DefaultPriorityData | src/service/IncrementalReviewer.ts:254-263 | the fallback data has 5.0 for every configured metric and no other |
| IncrementalReviewer.UnknownBlockReadsDefault | src/service/IncrementalReviewer.ts:238-262 | a block the kernel does not know reads exactly like the fallback for a failed request |
| IncrementalReviewer.AllConfiguredPresent | src/service/IncrementalReviewer.ts:248-251 | the data read has every configured metric, so the priority's denominator is the total weight |
| IncrementalReviewer.UnratedDocPriority | src/service/IncrementalReviewer.ts:248-262 | a document with no metric values stored has priority 5 under a positive total weight, and 0 otherwise |
| IncrementalReviewer.DocPriorityInRange | src/service/IncrementalReviewer.ts:236-253 | with non-negative weights, values read on the 0..10 scale give a priority on the 0..10 scale |
| IncrementalReviewer.ClampMetricValue | src/service/IncrementalReviewer.ts:273 | the clamped value lies in [0, 10], equals the input inside that range, and is 0 below it and 10 above it |
| IncrementalReviewer.ClampIdempotent | src/service/IncrementalReviewer.ts:273 | clamping a clamped value changes nothing |
| IncrementalReviewer.UpdateDocMetric | src/service/IncrementalReviewer.ts:270-285 | only the metric's attribute of that block changes, to the one-decimal text of the clamped value; an unknown block is left alone |
| IncrementalReviewer.MetricWriteThenRead | src/service/IncrementalReviewer.ts:249-277 | after a write, the written metric reads as the parsed text of the clamped value and every other metric reads as before |
| IncrementalReviewer.RoundToTenth | src/service/IncrementalReviewer.ts:277 | toFixed(1)'s number is within 0.05 of the value, keeps a value that already has one decimal, and keeps the 0..10 scale |
| IncrementalReviewer.MetricRoundTrip | src/service/IncrementalReviewer.ts:273-277 | when parseFloat reads toFixed(1)'s text as the rounded number, a written metric reads back as the clamped value rounded to a tenth, on the 0..10 scale and within 0.05 of the clamped value |
| IncrementalReviewer.RecordVisit | src/service/IncrementalReviewer.ts:293-300 | the visit count is written as the decimal text of the count read plus one, where a missing or empty count reads as parseInt("0"); no other attribute changes; the block is visited afterwards |
| IncrementalReviewer.VisitCount | src/service/IncrementalReviewer.ts:293-295 | the stored count text is parsed when present and non-empty; a missing or empty count parses the text "0" |
| IncrementalReviewer.UpdateVisitCount | src/service/IncrementalReviewer.ts:290-304 | only the visited block changes, as a recorded visit; an unknown block is left alone |
| IncrementalReviewer.ReadIntReadsIntegers | src/service/IncrementalReviewer.ts:295-299 | the modelled reader inverts the integer text a visit writes |
| IncrementalReviewer.VisitCountIncrements | src/service/IncrementalReviewer.ts:293-300 | with a parseInt that reads integer text back, a recorded visit adds exactly one to the count read |
| IncrementalReviewer.VisitTimesCount | src/service/IncrementalReviewer.ts:290-304 | n visits add exactly n to the count read |
| IncrementalReviewer.VisitKeepsPriorityData | src/service/IncrementalReviewer.ts:297-300 | recording a visit changes no document's metric values |
| IncrementalReviewer.VisitedNotReadmitted | src/service/IncrementalReviewer.ts:99-111 | after a visit, the configuration's candidate query no longer admits the document when it excludes visited documents, and otherwise admits it exactly when the block is known |
| IncrementalReviewer.ClearVisits | src/service/IncrementalReviewer.ts:338-344 | every listed block's visit count becomes empty and nothing else changes |
| IncrementalReviewer.ResetTodayVisits | src/service/IncrementalReviewer.ts:309-351 | a failed query changes nothing and reports its message; an empty answer resets nothing; otherwise every listed known block's visit count is cleared, nothing else changes, and the count of listed documents is reported |
| IncrementalReviewer.ResetReadmits | src/service/IncrementalReviewer.ts:337-344 | a reset known document is admitted again by the candidate query of any configuration and reads a count of parseInt("0") |
| IncrementalReviewer.ResetClearsScope | src/service/IncrementalReviewer.ts:313-344 | when the reset query finds every visited document in scope, the candidate query admits every known document in scope again |
| IncrementalReviewer.NoCandidatesMessage | src/service/IncrementalReviewer.ts:134-142 | the "all visited" message exactly when visited documents are excluded, and the "no match" message whenever they are not |
| IncrementalReviewer.ScoreCandidates | src/service/IncrementalReviewer.ts:159-172 | every candidate, in order, paired with its priority as read from the store |
| IncrementalReviewer.DocPriority | src/service/IncrementalReviewer.ts:162-163 | a candidate's priority is 0 when the configured weights do not total a positive amount; otherwise it is the weighted sum of the values read divided by the whole configured weight, since every configured metric is read |
| IncrementalReviewer.GetRandomDoc | src/service/IncrementalReviewer.ts:89-205 | a query error is passed on; no candidates gives the message for the exclusion setting; otherwise a listed candidate is picked and its visit recorded. Up to five candidates are picked at the uniform index; more are picked by the roulette wheel over their priorities read before the visit. When visited documents are excluded and the candidates answer the configuration's query, the pick was unvisited before, is visited after, and is no longer admitted |
| IncrementalReviewer.UnscoredCandidateSkipped | src/service/IncrementalReviewer.ts:159-181 | among scored candidates with non-negative priorities and a positive total, one of priority 0 is not picked, except the first one on a draw of exactly 0 |

## Left out

- Floating point: weights, values and priorities are exact reals. The rounding of `(w / total) * 100` is not modelled, nor are NaN from `parseFloat`/`parseInt` of malformed text, nor Infinity.
- `parseFloat`, `parseInt` and `toFixed(1)` are parameters. Integer `toString` is modelled concretely.
- SQL evaluation: `ORDER BY random()`, `LIMIT 100`, the `NOT EXISTS` visited sub-query and the path/box matching are not evaluated. The answers of the candidate and reset queries are inputs. `Admits` and `Answers` state what the candidate query selects apart from the path/box match and the `type = 'd'` restriction; where scope matters, it is a predicate parameter.
- `getTotalDocCount` (`IncrementalReviewer.ts:210-231`): a counting SQL query whose only logic is the filter clause, which is modelled.
- `initIncrementalConfig`, `saveIncrementalConfig` and the `addMetric`/`removeMetric`/`updateMetric` wrappers of `IncrementalReviewer`: they delegate to the modelled configuration operations and then persist through the plugin's storage, which is I/O.
- Network failures, where `fetch` itself throws. For `getDocPriorityData`, the catch branch's value is modelled (`DefaultPriorityData`) and shown equal to an unknown block's read. For `updateVisitCount` and `updateDocMetric`, a thrown write is caught and changes nothing, as for an unknown block. For `resetTodayVisits`, a thrown write rejects the whole `Promise.all` and yields the error message. The block whose write threw keeps its count, and the other writes may or may not have landed.
- The inner catch in `getRandomDoc` (`IncrementalReviewer.ts:166-170`) and the fallback catch (`:189-199`) are unreachable. `getDocPriorityData` catches its own errors, and neither `calculatePriority` nor the roulette wheel throws on a non-empty list.
- `Promise.all` concurrency in scoring and in the visit reset is treated as sequential. The writes touch distinct attributes or blocks, so their order does not matter.
- Logging, `showMessage` toasts and their durations. The messages of thrown errors are modelled.
- `getMetrics` only returns the configured list, which the model passes around as a value.
- `clearAllCache` is called by the plugin's entry point but is not defined in `IncrementalReviewer.ts`, so it is not part of this model.
- `src/models/IncrementalReadingConfig.ts`, a copy of `RandomDocConfig` that nothing imports, is not part of this model.
- UI, plugin lifecycle, HTTP plumbing and build scripts.
- IncrementalConfig.ApplyUpdate: a key present with the value `undefined`, as in `{ weight: undefined }`, overwrites the field with `undefined` in the code. The model's update fields are present or absent only, so such a key is read as absent and the field is kept.
- IncrementalConfig.UpdateMetric: for the same reason, an update `{ weight: undefined }` is not modelled. In the code it leaves the weight `undefined`, which makes the summed weight NaN in `calculatePriority`. Because `NaN > 0` is false, every priority becomes 0, so the pick is uniform, and `normalizeWeights` stops rescaling until the weight is set again.
- IncrementalConfig.AddMetric: metrics are values in the model. The code pushes the caller's object and renormalises in place, so an object that occurs twice in the list is rescaled twice. For example, adding M (weight 50) twice to [A (weight 50)] ends with 33.3, 22.2 and 22.2, not a total of 100.
- IncrementalConfig.ApplyOpsNormalized: the total-100 invariant is proved for lists of metric values. It does not cover lists in which one metric object occurs more than once, for the reason above.
- IncrementalReviewer.VisitCountIncrements: counts are unbounded integers. JavaScript keeps the count exact only below 2^53, and `toString` writes exponent notation from 10^21 on, so the increment holds in the code only for counts in the safe range.
- IncrementalReviewer.VisitTimesCount: likewise holds in the code only while the count stays below 2^53.
- Numerals.IntToStringRoundTrip: the text is JavaScript's `toString` text only for integers of magnitude below 2^53, as stated for VisitCountIncrements.
- IncrementalConfig.AddThenRemove: states proportionality up to a positive factor, not equality with the normalised original. The two agree when the original total is positive, but equality is not proved.

=== FILE: IncrementalConfig.dfy ===
/**
  The incremental-reading metric configuration: an ordered list of weighted
  metrics, the weighted-average priority computed from it, and the add /
  remove / update operations, each followed by proportional renormalisation of
  the weights to a total of 100. Numbers are exact reals.
 */
module IncrementalConfig {
  import opened Wrappers

  /** A user-defined metric: a value on the 0..10 scale and a weight in percent. */
  datatype Metric = Metric(id: string, name: string, value: real, weight: real, description: Option<string>)

  /** The metric values known for one document, keyed by metric id. */
  datatype DocPriorityData = DocPriorityData(docId: string, metrics: map<string, real>, visitCount: Option<int>)

  /** A partial metric: `None` marks a field the caller did not supply. */
  datatype MetricUpdate = MetricUpdate(
    id: Option<string>,
    name: Option<string>,
    value: Option<real>,
    weight: Option<real>,
    description: Option<string>)

  /** One mutation of the configuration, as offered to the user interface. */
  datatype ConfigOp =
    | AddOp(metric: Metric)
    | RemoveOp(metricId: string)
    | UpdateOp(metricId: string, update: MetricUpdate)

  // ---------------------------------------------------------------- sums

  /** The sum of all weights, accumulated left to right. */
  function TotalWeight(ms: seq<Metric>): real
  {
    if |ms| == 0 then 0.0 else TotalWeight(ms[..|ms| - 1]) + ms[|ms| - 1].weight
  }

  /** The sum of the weights of the metrics whose id has a value in `values`. */
  function PresentWeight(ms: seq<Metric>, values: map<string, real>): real
  {
    if |ms| == 0 then 0.0
    else
      var m := ms[|ms| - 1];
      PresentWeight(ms[..|ms| - 1], values) + (if m.id in values then m.weight else 0.0)
  }

  /** The sum of value times weight over the metrics whose id has a value in `values`. */
  function WeightedValue(ms: seq<Metric>, values: map<string, real>): real
  {
    if |ms| == 0 then 0.0
    else
      var m := ms[|ms| - 1];
      WeightedValue(ms[..|ms| - 1], values) + (if m.id in values then values[m.id] * m.weight else 0.0)
  }

  // ---------------------------------------------------------------- defaults

  /** The configuration every fresh reviewer starts with. */
  function DefaultMetrics(): (ms: seq<Metric>)
    ensures |ms| == 3
    ensures ms[0].id == "importance" && ms[0].weight == 40.0
    ensures ms[1].id == "urgency" && ms[1].weight == 30.0
    ensures ms[2].id == "difficulty" && ms[2].weight == 30.0
    ensures forall i | 0 <= i < |ms| :: ms[i].value == 5.0
    ensures TotalWeight(ms) == 100.0
  {
    var ms := [
      Metric("importance", "重要性", 5.0, 40.0, Some("文档的重要程度")),
      Metric("urgency", "紧急度", 5.0, 30.0, Some("需要尽快查看的程度")),
      Metric("difficulty", "难度", 5.0, 30.0, Some("理解和记忆的难度"))
    ];
    assert TotalWeight(ms[..1]) == 40.0;
    assert TotalWeight(ms[..2]) == 70.0;
    ms
  }

  // ---------------------------------------------------------------- priority

  /** The weighted average of the document's values over the configured metrics it has a value for. */
  function CalculatePriority(ms: seq<Metric>, doc: DocPriorityData): (p: real)
    ensures PresentWeight(ms, doc.metrics) <= 0.0 ==> p == 0.0
    ensures PresentWeight(ms, doc.metrics) > 0.0 ==> p * PresentWeight(ms, doc.metrics) == WeightedValue(ms, doc.metrics)
  {
    var totalWeight := PresentWeight(ms, doc.metrics);
    if totalWeight > 0.0 then WeightedValue(ms, doc.metrics) / totalWeight else 0.0
  }

  /** The configured metrics that have a value, in configuration order. */
  function PresentMetrics(ms: seq<Metric>, values: map<string, real>): (ps: seq<Metric>)
    ensures forall p | p in ps :: p in ms && p.id in values
  {
    if |ms| == 0 then []
    else
      var m := ms[|ms| - 1];
      PresentMetrics(ms[..|ms| - 1], values) + (if m.id in values then [m] else [])
  }

  /** The sum of value times weight over metrics that all have a value. */
  function DotProduct(ps: seq<Metric>, values: map<string, real>): real
    requires forall p | p in ps :: p.id in values
  {
    if |ps| == 0 then 0.0
    else
      assert ps[|ps| - 1] in ps;
      assert forall p | p in ps[..|ps| - 1] :: p in ps;
      DotProduct(ps[..|ps| - 1], values) + values[ps[|ps| - 1].id] * ps[|ps| - 1].weight
  }

  /** A plain weighted average: 0 unless the weights have a positive total. */
  function WeightedAverage(ps: seq<Metric>, values: map<string, real>): real
    requires forall p | p in ps :: p.id in values
  {
    if TotalWeight(ps) > 0.0 then DotProduct(ps, values) / TotalWeight(ps) else 0.0
  }

  /** The present weight is the total weight of the present sub-list. */
  lemma {:induction false} PresentWeightIsTotal(ms: seq<Metric>, values: map<string, real>)
    ensures PresentWeight(ms, values) == TotalWeight(PresentMetrics(ms, values))
  {
    if |ms| > 0 {
      var init := ms[..|ms| - 1];
      var m := ms[|ms| - 1];
      PresentWeightIsTotal(init, values);
      var ps := PresentMetrics(init, values);
      if m.id in values {
        var qs := ps + [m];
        assert PresentMetrics(ms, values) == qs;
        assert qs[..|qs| - 1] == ps;
        assert TotalWeight(qs) == TotalWeight(ps) + m.weight;
      } else {
        assert PresentMetrics(ms, values) == ps + [] == ps;
      }
    }
  }

  /** The weighted sum is the dot product over the present sub-list. */
  lemma {:induction false} WeightedValueIsDot(ms: seq<Metric>, values: map<string, real>)
    ensures WeightedValue(ms, values) == DotProduct(PresentMetrics(ms, values), values)
  {
    if |ms| > 0 {
      var init := ms[..|ms| - 1];
      var m := ms[|ms| - 1];
      WeightedValueIsDot(init, values);
      var ps := PresentMetrics(init, values);
      if m.id in values {
        var qs := ps + [m];
        assert PresentMetrics(ms, values) == qs;
        assert qs[..|qs| - 1] == ps && qs[|qs| - 1] == m;
        assert DotProduct(qs, values) == DotProduct(ps, values) + values[m.id] * m.weight;
      } else {
        assert PresentMetrics(ms, values) == ps + [] == ps;
      }
    }
  }

  /** The priority is the weighted average over exactly the configured metrics the document has values for. */
  lemma PriorityIsWeightedAverage(ms: seq<Metric>, doc: DocPriorityData)
    ensures CalculatePriority(ms, doc) == WeightedAverage(PresentMetrics(ms, doc.metrics), doc.metrics)
  {
    PresentWeightIsTotal(ms, doc.metrics);
    WeightedValueIsDot(ms, doc.metrics);
  }

  lemma MulMonotone(a: real, b: real, w: real)
    requires a <= b && w >= 0.0
    ensures a * w <= b * w
  {
  }

  lemma {:induction false} WeightedValueBounds(ms: seq<Metric>, values: map<string, real>, lo: real, hi: real)
    requires forall i | 0 <= i < |ms| :: ms[i].weight >= 0.0
    requires forall i | 0 <= i < |ms| && ms[i].id in values :: lo <= values[ms[i].id] <= hi
    ensures lo * PresentWeight(ms, values) <= WeightedValue(ms, values) <= hi * PresentWeight(ms, values)
  {
    if |ms| > 0 {
      var init := ms[..|ms| - 1];
      var m := ms[|ms| - 1];
      WeightedValueBounds(init, values, lo, hi);
      if m.id in values {
        BoundsPresentStep(ms, values, lo, hi);
      } else {
        BoundsAbsentStep(ms, values, lo, hi);
      }
    }
  }

  /** The inductive step of `WeightedValueBounds` when the last metric has no value: both sums are unchanged. */
  lemma {:induction false} BoundsAbsentStep(ms: seq<Metric>, values: map<string, real>, lo: real, hi: real)
    requires |ms| > 0 && ms[|ms| - 1].id !in values
    requires lo * PresentWeight(ms[..|ms| - 1], values) <= WeightedValue(ms[..|ms| - 1], values) <= hi * PresentWeight(ms[..|ms| - 1], values)
    ensures lo * PresentWeight(ms, values) <= WeightedValue(ms, values) <= hi * PresentWeight(ms, values)
  {
    assert PresentWeight(ms, values) == PresentWeight(ms[..|ms| - 1], values);
    assert WeightedValue(ms, values) == WeightedValue(ms[..|ms| - 1], values);
  }

  /** The inductive step of `WeightedValueBounds` when the last metric has a value. */
  lemma {:induction false} BoundsPresentStep(ms: seq<Metric>, values: map<string, real>, lo: real, hi: real)
    requires |ms| > 0 && ms[|ms| - 1].id in values && ms[|ms| - 1].weight >= 0.0
    requires lo <= values[ms[|ms| - 1].id] <= hi
    requires lo * PresentWeight(ms[..|ms| - 1], values) <= WeightedValue(ms[..|ms| - 1], values) <= hi * PresentWeight(ms[..|ms| - 1], values)
    ensures lo * PresentWeight(ms, values) <= WeightedValue(ms, values) <= hi * PresentWeight(ms, values)
  {
    var init, m := ms[..|ms| - 1], ms[|ms| - 1];
    var pw, wv := PresentWeight(init, values), WeightedValue(init, values);
    assert PresentWeight(ms, values) == pw + m.weight;
    assert WeightedValue(ms, values) == wv + values[m.id] * m.weight;
    BoundsStep(lo, hi, pw, wv, values[m.id], m.weight, PresentWeight(ms, values), WeightedValue(ms, values));
  }

  /** One more term `v * w`, with `lo <= v <= hi` and `w >= 0`, keeps the weighted sum between the bounds. */
  lemma BoundsStep(lo: real, hi: real, pw: real, wv: real, v: real, w: real, pw': real, wv': real)
    requires lo * pw <= wv <= hi * pw
    requires lo <= v <= hi && w >= 0.0
    requires pw' == pw + w && wv' == wv + v * w
    ensures lo * pw' <= wv' <= hi * pw'
  {
    MulMonotone(lo, v, w);
    MulMonotone(v, hi, w);
    Distributes(lo, pw, w);
    Distributes(hi, pw, w);
  }

  lemma Distributes(a: real, x: real, y: real)
    ensures a * (x + y) == a * x + a * y
  {
  }

  lemma DivisionBounds(a: real, b: real, lo: real, hi: real)
    requires b > 0.0 && lo * b <= a <= hi * b
    ensures lo <= a / b <= hi
  {
  }

  /** With non-negative weights, the priority lies between the least and greatest value present. */
  lemma PriorityBounds(ms: seq<Metric>, doc: DocPriorityData, lo: real, hi: real)
    requires forall i | 0 <= i < |ms| :: ms[i].weight >= 0.0
    requires forall i | 0 <= i < |ms| && ms[i].id in doc.metrics :: lo <= doc.metrics[ms[i].id] <= hi
    ensures PresentWeight(ms, doc.metrics) > 0.0 ==> lo <= CalculatePriority(ms, doc) <= hi
  {
    WeightedValueBounds(ms, doc.metrics, lo, hi);
    PriorityFromSumBounds(ms, doc, lo, hi);
  }

  /** Bounds on the two sums carry over to their quotient, the priority. */
  lemma PriorityFromSumBounds(ms: seq<Metric>, doc: DocPriorityData, lo: real, hi: real)
    requires lo * PresentWeight(ms, doc.metrics) <= WeightedValue(ms, doc.metrics) <= hi * PresentWeight(ms, doc.metrics)
    ensures PresentWeight(ms, doc.metrics) > 0.0 ==> lo <= CalculatePriority(ms, doc) <= hi
  {
    var tw, wv := PresentWeight(ms, doc.metrics), WeightedValue(ms, doc.metrics);
    if tw > 0.0 {
      assert CalculatePriority(ms, doc) == wv / tw;
      DivisionBounds(wv, tw, lo, hi);
    }
  }

  /** Values on the 0..10 scale and non-negative weights give a priority on the 0..10 scale. */
  lemma PriorityInRange(ms: seq<Metric>, doc: DocPriorityData)
    requires forall i | 0 <= i < |ms| :: ms[i].weight >= 0.0
    requires forall i | 0 <= i < |ms| && ms[i].id in doc.metrics :: 0.0 <= doc.metrics[ms[i].id] <= 10.0
    ensures 0.0 <= CalculatePriority(ms, doc) <= 10.0
  {
    PriorityBounds(ms, doc, 0.0, 10.0);
  }

  /** When every configured metric has a value, the denominator is the whole configuration's weight. */
  lemma {:induction false} PresentWeightAllPresent(ms: seq<Metric>, values: map<string, real>)
    requires forall i | 0 <= i < |ms| :: ms[i].id in values
    ensures PresentWeight(ms, values) == TotalWeight(ms)
  {
    if |ms| > 0 {
      PresentWeightAllPresent(ms[..|ms| - 1], values);
    }
  }

  lemma {:induction false} UniformWeightedValue(ms: seq<Metric>, values: map<string, real>, v: real)
    requires forall i | 0 <= i < |ms| && ms[i].id in values :: values[ms[i].id] == v
    ensures WeightedValue(ms, values) == v * PresentWeight(ms, values)
  {
    if |ms| > 0 {
      UniformWeightedValue(ms[..|ms| - 1], values, v);
    }
  }

  /** A document whose present values all equal `v` has priority `v`, given positive present weight. */
  lemma PriorityOfUniformValues(ms: seq<Metric>, doc: DocPriorityData, v: real)
    requires forall i | 0 <= i < |ms| && ms[i].id in doc.metrics :: doc.metrics[ms[i].id] == v
    ensures PresentWeight(ms, doc.metrics) > 0.0 ==> CalculatePriority(ms, doc) == v
  {
    var pw, wv := PresentWeight(ms, doc.metrics), WeightedValue(ms, doc.metrics);
    UniformWeightedValue(ms, doc.metrics, v);
    if pw > 0.0 {
      assert CalculatePriority(ms, doc) == wv / pw;
      DivideOut(wv, pw, v);
    }
  }

  lemma DivideOut(a: real, b: real, v: real)
    requires b > 0.0 && a == v * b
    ensures a / b == v
  {
  }

  // ---------------------------------------------------------------- scaling

  /** `a` and `b` differ at most in their weight. */
  predicate SameExceptWeight(a: Metric, b: Metric)
  {
    a.id == b.id && a.name == b.name && a.value == b.value && a.description == b.description
  }

  /** `rs` is `ms` with every weight multiplied by `c`, in the same order. */
  predicate ScaledBy(ms: seq<Metric>, rs: seq<Metric>, c: real)
  {
    |rs| == |ms| && forall i | 0 <= i < |ms| :: SameExceptWeight(ms[i], rs[i]) && rs[i].weight == ms[i].weight * c
  }

  lemma ScaledByPrefix(ms: seq<Metric>, rs: seq<Metric>, c: real, n: nat)
    requires ScaledBy(ms, rs, c) && n <= |ms|
    ensures ScaledBy(ms[..n], rs[..n], c)
  {
    assert forall i | 0 <= i < n :: ms[..n][i] == ms[i] && rs[..n][i] == rs[i];
  }

  lemma {:induction false} ScaledTotal(ms: seq<Metric>, rs: seq<Metric>, c: real)
    requires ScaledBy(ms, rs, c)
    ensures TotalWeight(rs) == c * TotalWeight(ms)
  {
    if |ms| > 0 {
      var n := |ms| - 1;
      ScaledByPrefix(ms, rs, c, n);
      ScaledTotal(ms[..n], rs[..n], c);
      assert rs[n].weight == ms[n].weight * c;
      SumStep(c, TotalWeight(ms[..n]), TotalWeight(rs[..n]), ms[n].weight, rs[n].weight, TotalWeight(ms), TotalWeight(rs));
    }
  }

  lemma {:induction false} ScaledPresent(ms: seq<Metric>, rs: seq<Metric>, c: real, values: map<string, real>)
    requires ScaledBy(ms, rs, c)
    ensures PresentWeight(rs, values) == c * PresentWeight(ms, values)
  {
    if |ms| > 0 {
      var n := |ms| - 1;
      ScaledByPrefix(ms, rs, c, n);
      ScaledPresent(ms[..n], rs[..n], c, values);
      assert rs[n].weight == ms[n].weight * c && rs[n].id == ms[n].id;
      ScaledPresentStep(ms, rs, c, values);
    }
  }

  lemma {:induction false} ScaledPresentStep(ms: seq<Metric>, rs: seq<Metric>, c: real, values: map<string, real>)
    requires |ms| > 0 && |rs| == |ms|
    requires rs[|ms| - 1].id == ms[|ms| - 1].id && rs[|ms| - 1].weight == ms[|ms| - 1].weight * c
    requires PresentWeight(rs[..|ms| - 1], values) == c * PresentWeight(ms[..|ms| - 1], values)
    ensures PresentWeight(rs, values) == c * PresentWeight(ms, values)
  {
    var n := |ms| - 1;
    var m, r := ms[n], rs[n];
    var t := if m.id in values then m.weight else 0.0;
    var t' := if r.id in values then r.weight else 0.0;
    assert PresentWeight(ms, values) == PresentWeight(ms[..n], values) + t;
    assert PresentWeight(rs, values) == PresentWeight(rs[..n], values) + t';
    assert t' == t * c;
    SumStep(c, PresentWeight(ms[..n], values), PresentWeight(rs[..n], values), t, t',
            PresentWeight(ms, values), PresentWeight(rs, values));
  }

  lemma {:induction false} ScaledWeighted(ms: seq<Metric>, rs: seq<Metric>, c: real, values: map<string, real>)
    requires ScaledBy(ms, rs, c)
    ensures WeightedValue(rs, values) == c * WeightedValue(ms, values)
  {
    if |ms| > 0 {
      var n := |ms| - 1;
      ScaledByPrefix(ms, rs, c, n);
      ScaledWeighted(ms[..n], rs[..n], c, values);
      assert rs[n].weight == ms[n].weight * c && rs[n].id == ms[n].id;
      ScaledWeightedStep(ms, rs, c, values);
    }
  }

  lemma {:induction false} ScaledWeightedStep(ms: seq<Metric>, rs: seq<Metric>, c: real, values: map<string, real>)
    requires |ms| > 0 && |rs| == |ms|
    requires rs[|ms| - 1].id == ms[|ms| - 1].id && rs[|ms| - 1].weight == ms[|ms| - 1].weight * c
    requires WeightedValue(rs[..|ms| - 1], values) == c * WeightedValue(ms[..|ms| - 1], values)
    ensures WeightedValue(rs, values) == c * WeightedValue(ms, values)
  {
    var n := |ms| - 1;
    if ms[n].id in values {
      ScaledWeightedPresent(ms, rs, c, values);
    } else {
      assert WeightedValue(ms, values) == WeightedValue(ms[..n], values);
      assert WeightedValue(rs, values) == WeightedValue(rs[..n], values);
    }
  }

  lemma {:induction false} ScaledWeightedPresent(ms: seq<Metric>, rs: seq<Metric>, c: real, values: map<string, real>)
    requires |ms| > 0 && |rs| == |ms| && ms[|ms| - 1].id in values
    requires rs[|ms| - 1].id == ms[|ms| - 1].id && rs[|ms| - 1].weight == ms[|ms| - 1].weight * c
    requires WeightedValue(rs[..|ms| - 1], values) == c * WeightedValue(ms[..|ms| - 1], values)
    ensures WeightedValue(rs, values) == c * WeightedValue(ms, values)
  {
    var n := |ms| - 1;
    var m, r := ms[n], rs[n];
    var v := values[m.id];
    WeightedValueLast(ms, values);
    WeightedValueLast(rs, values);
    WeightedTermStep(c, v, m.weight, r.weight, WeightedValue(ms[..n], values), WeightedValue(rs[..n], values),
                     WeightedValue(ms, values), WeightedValue(rs, values));
  }

  lemma WeightedValueLast(ms: seq<Metric>, values: map<string, real>)
    requires |ms| > 0 && ms[|ms| - 1].id in values
    ensures WeightedValue(ms, values) == WeightedValue(ms[..|ms| - 1], values) + values[ms[|ms| - 1].id] * ms[|ms| - 1].weight
  {
  }

  /** Adding a term `v * w` to a sum, both scaled by `c`, gives the scaled sum. */
  lemma WeightedTermStep(c: real, v: real, w: real, w': real, s0: real, s0': real, before: real, after: real)
    requires w' == w * c && s0' == c * s0
    requires before == s0 + v * w && after == s0' + v * w'
    ensures after == c * before
  {
    TermScaled(v, w, w', c, v * w, v * w');
    SumStep(c, s0, s0', v * w, v * w', before, after);
  }

  /** A product term scales with its weight. */
  lemma TermScaled(v: real, w: real, w': real, c: real, t: real, t': real)
    requires w' == w * c && t == v * w && t' == v * w'
    ensures t' == t * c
  {
  }

  /** A sum whose two parts are scaled by `c` is scaled by `c`. */
  lemma SumStep(c: real, s0: real, s0': real, t: real, t': real, before: real, after: real)
    requires s0' == c * s0 && t' == t * c
    requires before == s0 + t && after == s0' + t'
    ensures after == c * before
  {
    Distributes(c, s0, t);
  }

  /** Multiplying every weight by `c` multiplies each of the three sums by `c`. */
  lemma ScaledSums(ms: seq<Metric>, rs: seq<Metric>, c: real, values: map<string, real>)
    requires ScaledBy(ms, rs, c)
    ensures TotalWeight(rs) == c * TotalWeight(ms)
    ensures PresentWeight(rs, values) == c * PresentWeight(ms, values)
    ensures WeightedValue(rs, values) == c * WeightedValue(ms, values)
  {
    ScaledTotal(ms, rs, c);
    ScaledPresent(ms, rs, c, values);
    ScaledWeighted(ms, rs, c, values);
  }

  lemma CancelFactor(a: real, b: real, c: real)
    requires b > 0.0 && c > 0.0
    ensures (c * a) / (c * b) == a / b
  {
    var q := a / b;
    assert a == q * b;
    assert c * a == q * (c * b);
  }

  /** Scaling every weight by the same positive factor leaves every document's priority unchanged. */
  lemma PriorityScaleInvariant(ms: seq<Metric>, rs: seq<Metric>, c: real, doc: DocPriorityData)
    requires c > 0.0 && ScaledBy(ms, rs, c)
    ensures CalculatePriority(rs, doc) == CalculatePriority(ms, doc)
  {
    ScaledSums(ms, rs, c, doc.metrics);
    var tw := PresentWeight(ms, doc.metrics);
    var wv := WeightedValue(ms, doc.metrics);
    if tw > 0.0 {
      assert c * tw > 0.0;
      CancelFactor(wv, tw, c);
    } else {
      assert c * tw <= 0.0;
    }
  }

  // ---------------------------------------------------------------- normalisation

  /** The factor renormalisation multiplies every weight by: 100/total, or 1 when the total is not positive. */
  function NormalizationFactor(total: real): (c: real)
    ensures c > 0.0
    ensures total > 0.0 ==> c * total == 100.0
  {
    if total > 0.0 then 100.0 / total else 1.0
  }

  /** Rescales the weights proportionally so that a positive total becomes 100. */
  function NormalizeWeights(ms: seq<Metric>): (r: seq<Metric>)
    ensures ScaledBy(ms, r, NormalizationFactor(TotalWeight(ms)))
    ensures TotalWeight(ms) > 0.0 ==> TotalWeight(r) == 100.0
    ensures TotalWeight(ms) <= 0.0 || TotalWeight(ms) == 100.0 ==> r == ms
  {
    var totalWeight := TotalWeight(ms);
    if totalWeight > 0.0 && totalWeight != 100.0 then
      var r := seq(|ms|, i requires 0 <= i < |ms| => ms[i].(weight := (ms[i].weight / totalWeight) * 100.0));
      assert ScaledBy(ms, r, 100.0 / totalWeight);
      ScaledTotal(ms, r, 100.0 / totalWeight);
      r
    else
      ms
  }

  /** Normalised weights keep their pairwise ratios. */
  lemma NormalizePreservesRatios(ms: seq<Metric>, i: nat, j: nat)
    requires i < |ms| && j < |ms|
    ensures NormalizeWeights(ms)[i].weight * ms[j].weight == NormalizeWeights(ms)[j].weight * ms[i].weight
  {
    var r := NormalizeWeights(ms);
    var c := NormalizationFactor(TotalWeight(ms));
    assert r[i].weight == ms[i].weight * c;
    assert r[j].weight == ms[j].weight * c;
  }

  /** Normalising twice is normalising once. */
  lemma NormalizeIdempotent(ms: seq<Metric>)
    ensures NormalizeWeights(NormalizeWeights(ms)) == NormalizeWeights(ms)
  {
  }

  /** Normalisation never changes any document's priority. */
  lemma NormalizePreservesPriority(ms: seq<Metric>, doc: DocPriorityData)
    ensures CalculatePriority(NormalizeWeights(ms), doc) == CalculatePriority(ms, doc)
  {
    PriorityScaleInvariant(ms, NormalizeWeights(ms), NormalizationFactor(TotalWeight(ms)), doc);
  }

  /** The default configuration is already normalised. */
  lemma DefaultMetricsNormalized()
    ensures NormalizeWeights(DefaultMetrics()) == DefaultMetrics()
  {
  }

  // ---------------------------------------------------------------- add

  lemma TotalWeightAppend(ms: seq<Metric>, m: Metric)
    ensures TotalWeight(ms + [m]) == TotalWeight(ms) + m.weight
  {
    assert (ms + [m])[..|ms|] == ms;
  }

  /** Appends a metric and renormalises. */
  function AddMetric(ms: seq<Metric>, m: Metric): (r: seq<Metric>)
    ensures |r| == |ms| + 1
    ensures ScaledBy(ms + [m], r, NormalizationFactor(TotalWeight(ms) + m.weight))
    ensures TotalWeight(ms) + m.weight > 0.0 ==> TotalWeight(r) == 100.0
  {
    TotalWeightAppend(ms, m);
    NormalizeWeights(ms + [m])
  }

  // ---------------------------------------------------------------- remove

  /** The metrics whose id differs from `id`, in their original order. */
  function WithoutId(ms: seq<Metric>, id: string): (r: seq<Metric>)
    ensures forall m | m in r :: m in ms && m.id != id
    ensures forall m | m in ms && m.id != id :: m in r
    ensures |r| <= |ms|
  {
    if |ms| == 0 then []
    else (if ms[0].id != id then [ms[0]] else []) + WithoutId(ms[1..], id)
  }

  /** Filtering distributes over concatenation, so relative order is kept. */
  lemma {:induction false} WithoutIdAppend(a: seq<Metric>, b: seq<Metric>, id: string)
    ensures WithoutId(a + b, id) == WithoutId(a, id) + WithoutId(b, id)
  {
    if |a| > 0 {
      var head := if a[0].id != id then [a[0]] else [];
      assert (a + b)[0] == a[0];
      assert (a + b)[1..] == a[1..] + b;
      assert WithoutId(a + b, id) == head + WithoutId(a[1..] + b, id);
      assert WithoutId(a, id) == head + WithoutId(a[1..], id);
      WithoutIdAppend(a[1..], b, id);
      AppendAssoc(head, WithoutId(a[1..], id), WithoutId(b, id));
    } else {
      assert a + b == b;
    }
  }

  lemma AppendAssoc<T>(x: seq<T>, y: seq<T>, z: seq<T>)
    ensures x + (y + z) == (x + y) + z
  {
  }

  /** Filtering out an id nobody has keeps the list as it is. */
  lemma {:induction false} WithoutAbsentId(ms: seq<Metric>, id: string)
    requires forall i | 0 <= i < |ms| :: ms[i].id != id
    ensures WithoutId(ms, id) == ms
  {
    if |ms| > 0 {
      WithoutAbsentId(ms[1..], id);
      assert [ms[0]] + ms[1..] == ms;
    }
  }

  /** Drops every metric with the id and renormalises the rest. */
  function RemoveMetric(ms: seq<Metric>, id: string): (r: seq<Metric>)
    ensures ScaledBy(WithoutId(ms, id), r, NormalizationFactor(TotalWeight(WithoutId(ms, id))))
    ensures forall i | 0 <= i < |r| :: r[i].id != id
    ensures TotalWeight(WithoutId(ms, id)) > 0.0 ==> TotalWeight(r) == 100.0
  {
    NoIdAfterRemoval(ms, id);
    NormalizeWeights(WithoutId(ms, id))
  }

  lemma NoIdAfterRemoval(ms: seq<Metric>, id: string)
    ensures forall i | 0 <= i < |NormalizeWeights(WithoutId(ms, id))| :: NormalizeWeights(WithoutId(ms, id))[i].id != id
  {
    var kept := WithoutId(ms, id);
    var r := NormalizeWeights(kept);
    assert forall i | 0 <= i < |r| :: r[i].id == kept[i].id && kept[i] in kept;
  }

  /** Removing an id nobody has only renormalises. */
  lemma RemoveAbsentId(ms: seq<Metric>, id: string)
    requires forall i | 0 <= i < |ms| :: ms[i].id != id
    ensures RemoveMetric(ms, id) == NormalizeWeights(ms)
  {
    WithoutAbsentId(ms, id);
  }

  lemma ScaledByCompose(ms: seq<Metric>, a: seq<Metric>, b: seq<Metric>, c: real, d: real)
    requires ScaledBy(ms, a, c) && ScaledBy(a, b, d)
    ensures ScaledBy(ms, b, c * d)
  {
    forall i | 0 <= i < |ms|
      ensures b[i].weight == ms[i].weight * (c * d)
    {
      assert b[i].weight == (ms[i].weight * c) * d;
    }
  }

  lemma ScaledByFront(ms: seq<Metric>, m: Metric, rs: seq<Metric>, c: real)
    requires ScaledBy(ms + [m], rs, c)
    ensures ScaledBy(ms, rs[..|ms|], c)
    ensures rs == rs[..|ms|] + [rs[|ms|]] && rs[|ms|].id == m.id
  {
    ScaledByPrefix(ms + [m], rs, c, |ms|);
    assert (ms + [m])[..|ms|] == ms;
    assert (ms + [m])[|ms|] == m;
  }

  lemma DropFreshLast(ms: seq<Metric>, front: seq<Metric>, last: Metric, c: real)
    requires ScaledBy(ms, front, c)
    requires forall i | 0 <= i < |ms| :: ms[i].id != last.id
    ensures WithoutId(front + [last], last.id) == front
  {
    assert forall i | 0 <= i < |front| :: front[i].id == ms[i].id;
    WithoutIdAppend(front, [last], last.id);
    WithoutAbsentId(front, last.id);
    assert WithoutId([last], last.id) == [];
  }

  /** Removing a freshly added metric leaves the scaled original. */
  lemma KeptAfterAdd(ms: seq<Metric>, m: Metric)
    requires forall i | 0 <= i < |ms| :: ms[i].id != m.id
    ensures ScaledBy(ms, WithoutId(AddMetric(ms, m), m.id), NormalizationFactor(TotalWeight(ms) + m.weight))
  {
    var c1 := NormalizationFactor(TotalWeight(ms) + m.weight);
    var added := AddMetric(ms, m);
    var front := added[..|ms|];
    var last := added[|ms|];
    ScaledByFront(ms, m, added, c1);
    DropFreshLast(ms, front, last, c1);
    assert WithoutId(added, m.id) == front;
  }

  /** `rs` has the entries of `ms`, in order, with every weight multiplied by one positive factor. */
  ghost predicate Proportional(ms: seq<Metric>, rs: seq<Metric>)
  {
    exists c :: c > 0.0 && ScaledBy(ms, rs, c)
  }

  /**
    Adding a metric with a fresh id and removing it again restores the original entries in
    order, with their weight ratios, renormalised to 100 when their total is positive.
   */
  lemma AddThenRemove(ms: seq<Metric>, m: Metric)
    requires forall i | 0 <= i < |ms| :: ms[i].id != m.id
    ensures Proportional(ms, RemoveMetric(AddMetric(ms, m), m.id))
    ensures TotalWeight(ms) > 0.0 ==> TotalWeight(RemoveMetric(AddMetric(ms, m), m.id)) == 100.0
  {
    var c1 := NormalizationFactor(TotalWeight(ms) + m.weight);
    var added := AddMetric(ms, m);
    KeptAfterAdd(ms, m);
    RemoveScaled(ms, added, m.id, c1);
    ScaledKeepsPositiveTotal(ms, WithoutId(added, m.id), c1);
  }

  lemma ScaledKeepsPositiveTotal(ms: seq<Metric>, rs: seq<Metric>, c: real)
    requires ScaledBy(ms, rs, c) && c > 0.0
    ensures TotalWeight(ms) > 0.0 ==> TotalWeight(rs) > 0.0
  {
    ScaledTotal(ms, rs, c);
  }

  lemma RemoveUnfold(ms: seq<Metric>, id: string)
    ensures RemoveMetric(ms, id) == NormalizeWeights(WithoutId(ms, id))
  {
  }

  lemma NormalizeAfterScale(ms: seq<Metric>, kept: seq<Metric>, c1: real)
    requires ScaledBy(ms, kept, c1)
    ensures ScaledBy(ms, NormalizeWeights(kept), c1 * NormalizationFactor(TotalWeight(kept)))
  {
    ScaledByCompose(ms, kept, NormalizeWeights(kept), c1, NormalizationFactor(TotalWeight(kept)));
  }

  lemma RemoveScaled(ms: seq<Metric>, added: seq<Metric>, id: string, c1: real)
    requires ScaledBy(ms, WithoutId(added, id), c1) && c1 > 0.0
    ensures Proportional(ms, RemoveMetric(added, id))
  {
    RemoveUnfold(added, id);
    NormalizeAfterScale(ms, WithoutId(added, id), c1);
  }

  // ---------------------------------------------------------------- update

  /** The first index at or after `k` whose metric has the id. */
  function FindIndexFrom(ms: seq<Metric>, id: string, k: nat): (r: Option<nat>)
    requires k <= |ms|
    ensures r.Some? ==> k <= r.value < |ms| && ms[r.value].id == id
    ensures r.Some? ==> forall j | k <= j < r.value :: ms[j].id != id
    ensures r.None? ==> forall j | k <= j < |ms| :: ms[j].id != id
    decreases |ms| - k
  {
    if k == |ms| then None
    else if ms[k].id == id then Some(k)
    else FindIndexFrom(ms, id, k + 1)
  }

  /** The first index whose metric has the id, if any. */
  function FindIndex(ms: seq<Metric>, id: string): (r: Option<nat>)
    ensures r.Some? ==> r.value < |ms| && ms[r.value].id == id
    ensures r.Some? ==> forall j | 0 <= j < r.value :: ms[j].id != id
    ensures r.None? <==> forall j | 0 <= j < |ms| :: ms[j].id != id
  {
    FindIndexFrom(ms, id, 0)
  }

  /** Object spread: every supplied field overwrites, every other field is kept. */
  function ApplyUpdate(m: Metric, u: MetricUpdate): (r: Metric)
    ensures u.id.Some? ==> r.id == u.id.value
    ensures u.name.Some? ==> r.name == u.name.value
    ensures u.value.Some? ==> r.value == u.value.value
    ensures u.weight.Some? ==> r.weight == u.weight.value
    ensures u.description.Some? ==> r.description == u.description
    ensures u.id.None? ==> r.id == m.id
    ensures u.name.None? ==> r.name == m.name
    ensures u.value.None? ==> r.value == m.value
    ensures u.weight.None? ==> r.weight == m.weight
    ensures u.description.None? ==> r.description == m.description
  {
    Metric(
      u.id.GetOr(m.id),
      u.name.GetOr(m.name),
      u.value.GetOr(m.value),
      u.weight.GetOr(m.weight),
      if u.description.Some? then u.description else m.description)
  }

  /**
    Overwrites the supplied fields of the first metric with the id; renormalises only
    when a weight was supplied; does nothing when no metric has the id.
   */
  function UpdateMetric(ms: seq<Metric>, id: string, u: MetricUpdate): (r: seq<Metric>)
    ensures FindIndex(ms, id).None? ==> r == ms
    ensures FindIndex(ms, id).Some? && u.weight.None? ==>
      var i := FindIndex(ms, id).value;
      |r| == |ms| && r[i] == ApplyUpdate(ms[i], u) && forall j | 0 <= j < |ms| && j != i :: r[j] == ms[j]
    ensures FindIndex(ms, id).Some? && u.weight.Some? ==>
      var i := FindIndex(ms, id).value;
      var updated := ms[i := ApplyUpdate(ms[i], u)];
      ScaledBy(updated, r, NormalizationFactor(TotalWeight(updated)))
      && (TotalWeight(updated) > 0.0 ==> TotalWeight(r) == 100.0)
  {
    match FindIndex(ms, id)
    case None => ms
    case Some(i) =>
      var updated := ms[i := ApplyUpdate(ms[i], u)];
      if u.weight.Some? then NormalizeWeights(updated) else updated
  }

  /** A weight-free update that keeps the id can be applied twice with the effect of once. */
  lemma UpdateWithoutWeightIdempotent(ms: seq<Metric>, id: string, u: MetricUpdate)
    requires u.weight.None?
    requires u.id.None? || u.id == Some(id)
    ensures UpdateMetric(UpdateMetric(ms, id, u), id, u) == UpdateMetric(ms, id, u)
  {
    var once := UpdateMetric(ms, id, u);
    match FindIndex(ms, id)
    case None =>
    case Some(i) =>
      assert once[i].id == id;
      assert forall j | 0 <= j < i :: once[j] == ms[j];
      assert FindIndex(once, id) == Some(i);
  }

  lemma {:induction false} TotalWeightOfUpdate(ms: seq<Metric>, i: nat, m: Metric)
    requires i < |ms|
    ensures TotalWeight(ms[i := m]) == TotalWeight(ms) - ms[i].weight + m.weight
  {
    var n := |ms| - 1;
    var r := ms[i := m];
    if i < n {
      assert r[..n] == ms[..n][i := m];
      TotalWeightOfUpdate(ms[..n], i, m);
    } else {
      assert r[..n] == ms[..n];
    }
  }

  // ---------------------------------------------------------------- operation sequences

  /** The invariant every mutation re-establishes: the weights sum to 100, or have no positive total. */
  predicate WeightsNormalized(ms: seq<Metric>)
  {
    TotalWeight(ms) == 100.0 || TotalWeight(ms) <= 0.0
  }

  function ApplyOp(ms: seq<Metric>, op: ConfigOp): seq<Metric>
  {
    match op
    case AddOp(m) => AddMetric(ms, m)
    case RemoveOp(id) => RemoveMetric(ms, id)
    case UpdateOp(id, u) => UpdateMetric(ms, id, u)
  }

  function ApplyOps(ms: seq<Metric>, ops: seq<ConfigOp>): seq<Metric>
    decreases |ops|
  {
    if |ops| == 0 then ms else ApplyOps(ApplyOp(ms, ops[0]), ops[1..])
  }

  /** Every single mutation leaves the weights normalised. */
  lemma ApplyOpNormalized(ms: seq<Metric>, op: ConfigOp)
    requires WeightsNormalized(ms)
    ensures WeightsNormalized(ApplyOp(ms, op))
  {
    match op
    case AddOp(m) =>
    case RemoveOp(id) =>
    case UpdateOp(id, u) =>
      match FindIndex(ms, id)
      case None =>
      case Some(i) =>
        TotalWeightOfUpdate(ms, i, ApplyUpdate(ms[i], u));
  }

  /** After any sequence of mutations the weights sum to 100, unless none of them is positive in total. */
  lemma {:induction false} ApplyOpsNormalized(ms: seq<Metric>, ops: seq<ConfigOp>)
    requires WeightsNormalized(ms)
    ensures WeightsNormalized(ApplyOps(ms, ops))
    decreases |ops|
  {
    if |ops| > 0 {
      ApplyOpNormalized(ms, ops[0]);
      ApplyOpsNormalized(ApplyOp(ms, ops[0]), ops[1..]);
    }
  }
}

=== FILE: IncrementalReviewer.dfy ===
/**
  The incremental reviewer: it builds the document filter from the run-time
  configuration, reads each document's metric values and visit count from
  the block-attribute store, picks the next document (uniformly among a few
  candidates, by roulette wheel among more), records the visit, clamps and
  writes metric values, and clears the visit records.

  The kernel is modelled by its effect on a store of block attributes. A
  block missing from the store is one the kernel reports an error for: reads
  of it see none of the plugin's attributes and writes to it change nothing.
  The SQL queries themselves are not evaluated; their answers are inputs.
  `parseFloat`, `parseInt` and `toFixed(1)` are parameters, and `Math.random()`
  is a draw `u` in [0, 1).
 */
module IncrementalReviewer {
  import opened Wrappers
  import opened IncrementalConfig
  import opened RandomDocConfig
  import opened Numerals
  import opened Roulette

  /** One block's attributes, name to stored text. */
  type Attrs = map<string, string>

  /** The block-attribute store, block id to attributes. */
  type Store = map<string, Attrs>

  const VisitCountKey: string := "custom-visit-count"
  const MetricKeyPrefix: string := "custom-metric-"
  /** The text read for a metric a document has no value for. */
  const DefaultMetricText: string := "5.0"
  const DefaultMetricValue: real := 5.0
  /** The text read for a document never visited. */
  const ZeroCountText: string := "0"
  /** Up to this many candidates are chosen among uniformly, without computing priorities. */
  const SmallCandidateLimit: nat := 5
  /** The candidate query's `LIMIT`. */
  const CandidateLimit: nat := 100
  const AllVisitedMessage: string := "所有文档都已访问过，可以重置访问记录或关闭排除已访问选项"
  const NoMatchMessage: string := "没有找到符合条件的文档"

  /** The attribute holding a metric's value for a document. */
  function MetricKey(metricId: string): string
  {
    MetricKeyPrefix + metricId
  }

  lemma MetricKeyInjective(a: string, b: string)
    ensures MetricKey(a) == MetricKey(b) <==> a == b
  {
    if MetricKey(a) == MetricKey(b) {
      assert a == MetricKey(a)[|MetricKeyPrefix|..];
      assert b == MetricKey(b)[|MetricKeyPrefix|..];
    }
  }

  /** A metric key is never the visit-count key: the two differ at index 7. */
  lemma MetricKeyNotVisitCount(metricId: string)
    ensures MetricKey(metricId) != VisitCountKey
  {
    assert MetricKey(metricId)[7] != VisitCountKey[7];
  }

  // ---------------------------------------------------------------- store access

  /** What a read of block `docId` yields: nothing of the plugin's for a block the kernel does not know. */
  function AttrsOf(store: Store, docId: string): (a: Attrs)
    ensures docId in store ==> a == store[docId]
    ensures docId !in store ==> |a| == 0
  {
    if docId in store then store[docId] else map[]
  }

  /** JavaScript's `attrs[key] || fallback`: a missing or empty attribute gives the fallback. */
  function AttrOr(attrs: Attrs, key: string, fallback: string): (s: string)
    ensures key in attrs && attrs[key] != "" ==> s == attrs[key]
    ensures !(key in attrs && attrs[key] != "") ==> s == fallback
  {
    if key in attrs && attrs[key] != "" then attrs[key] else fallback
  }

  /** A `setBlockAttrs` call with one attribute; a block the kernel does not know is left as it is. */
  function SetAttr(store: Store, docId: string, key: string, value: string): (s: Store)
    ensures s.Keys == store.Keys
    ensures forall d | d in store && d != docId :: s[d] == store[d]
    ensures docId in store ==> s[docId].Keys == store[docId].Keys + {key} && s[docId][key] == value
    ensures docId in store ==> forall k | k in store[docId] && k != key :: s[docId][k] == store[docId][k]
    ensures docId !in store ==> s == store
  {
    if docId in store then store[docId := store[docId][key := value]] else store
  }

  // ---------------------------------------------------------------- filter

  function EffectiveFilterMode(c: RandomDocConfig): FilterMode
  {
    c.filterMode.GetOr(Notebook)
  }

  function EffectiveNotebookId(c: RandomDocConfig): string
  {
    c.notebookId.GetOr("")
  }

  function EffectiveRootId(c: RandomDocConfig): string
  {
    c.rootId.GetOr("")
  }

  /** Restricts to documents whose path mentions the root document. */
  function RootClause(rootId: string): string
  {
    "AND path like '%" + rootId + "%'"
  }

  /** Restricts to documents of one notebook. */
  function NotebookClause(notebookId: string): string
  {
    "AND box = '" + notebookId + "'"
  }

  /** The two clauses are never empty and never equal: they differ in the column they test. */
  lemma ClausesDiffer(rootId: string, notebookId: string)
    ensures RootClause(rootId) != NotebookClause(notebookId)
    ensures RootClause(rootId) != "" && NotebookClause(notebookId) != ""
  {
    assert RootClause(rootId)[4] == 'p';
    assert NotebookClause(notebookId)[4] == 'b';
  }

  /** The configuration restricts by root document: root mode with a root chosen. */
  predicate RestrictsByRoot(c: RandomDocConfig)
  {
    EffectiveFilterMode(c) == Root && EffectiveRootId(c) != ""
  }

  /** The configuration restricts by notebook: notebook mode (or no mode) with a notebook chosen. */
  predicate RestrictsByNotebook(c: RandomDocConfig)
  {
    EffectiveFilterMode(c) == Notebook && EffectiveNotebookId(c) != ""
  }

  /**
    The extra SQL condition for the configured scope: a root-path clause, a notebook clause,
    or nothing, never a clause for the mode not selected.
   */
  function BuildFilterCondition(c: RandomDocConfig): (clause: string)
    ensures clause == RootClause(EffectiveRootId(c)) <==> RestrictsByRoot(c)
    ensures clause == NotebookClause(EffectiveNotebookId(c)) <==> RestrictsByNotebook(c)
    ensures clause == "" <==> !RestrictsByRoot(c) && !RestrictsByNotebook(c)
  {
    var filterMode := EffectiveFilterMode(c);
    var notebookId := EffectiveNotebookId(c);
    var rootId := EffectiveRootId(c);
    ClausesDiffer(rootId, notebookId);
    if filterMode == Root && |rootId| > 0 then RootClause(rootId)
    else if filterMode == Notebook && |notebookId| > 0 then NotebookClause(notebookId)
    else ""
  }

  /** In root mode the notebook setting has no effect on the filter. */
  lemma RootModeIgnoresNotebook(c: RandomDocConfig, notebookId: Option<string>)
    requires EffectiveFilterMode(c) == Root
    ensures BuildFilterCondition(c.(notebookId := notebookId)) == BuildFilterCondition(c)
  {
  }

  /** In notebook mode the root setting has no effect on the filter. */
  lemma NotebookModeIgnoresRoot(c: RandomDocConfig, rootId: Option<string>)
    requires EffectiveFilterMode(c) == Notebook
    ensures BuildFilterCondition(c.(rootId := rootId)) == BuildFilterCondition(c)
  {
  }

  /** A fresh configuration has no notebook chosen, so it does not restrict the documents at all. */
  lemma DefaultConfigUnrestricted()
    ensures BuildFilterCondition(NewRandomDocConfig()) == ""
  {
  }

  /** The candidate query: type-`d` blocks in scope, optionally unvisited ones, in random order, at most 100. */
  datatype CandidateQuery = CandidateQuery(filterCondition: string, excludeVisited: bool, limit: nat)

  function BuildCandidateQuery(c: RandomDocConfig): (q: CandidateQuery)
    ensures q.filterCondition == BuildFilterCondition(c)
    ensures q.excludeVisited <==> ExcludesVisited(c)
    ensures q.limit == CandidateLimit
    ensures forall store: Store, d: string :: Admits(q, store, d) <==> d in store && (ExcludesVisited(c) ==> !Visited(store[d]))
  {
    CandidateQuery(BuildFilterCondition(c), ExcludesVisited(c), CandidateLimit)
  }

  /** A visit has been recorded for the block: its visit-count attribute is present and not empty. */
  predicate Visited(attrs: Attrs)
  {
    VisitCountKey in attrs && attrs[VisitCountKey] != ""
  }

  /**
    Apart from the scope clause, a document may appear in the query's answer when it is a
    known block and, if the query excludes visited documents, has no visit recorded.
   */
  predicate Admits(q: CandidateQuery, store: Store, docId: string)
  {
    docId in store && (q.excludeVisited ==> !Visited(store[docId]))
  }

  /** `docs` is an answer the query may give against `store`: at most `limit` documents, each admitted. */
  predicate Answers(q: CandidateQuery, store: Store, docs: seq<string>)
  {
    |docs| <= q.limit && forall i | 0 <= i < |docs| :: Admits(q, store, docs[i])
  }

  // ---------------------------------------------------------------- metric values

  function MetricIds(ms: seq<Metric>): set<string>
  {
    set i | 0 <= i < |ms| :: ms[i].id
  }

  /** The metric's attribute is set to non-empty text on the block. */
  predicate HasStoredValue(attrs: Attrs, metricId: string)
  {
    MetricKey(metricId) in attrs && attrs[MetricKey(metricId)] != ""
  }

  /**
    The document's value for every configured metric: its stored text parsed, or "5.0" parsed
    where the attribute is missing or empty.
   */
  function GetDocPriorityData(ms: seq<Metric>, docId: string, store: Store, parseReal: string -> real): (d: DocPriorityData)
    ensures d.docId == docId && d.visitCount == None
    ensures d.metrics.Keys == MetricIds(ms)
    ensures forall id | id in d.metrics && HasStoredValue(AttrsOf(store, docId), id) ::
      d.metrics[id] == parseReal(store[docId][MetricKey(id)])
    ensures forall id | id in d.metrics && !HasStoredValue(AttrsOf(store, docId), id) ::
      d.metrics[id] == parseReal(DefaultMetricText)
  {
    var attrs := AttrsOf(store, docId);
    DocPriorityData(docId, map id | id in MetricIds(ms) :: parseReal(AttrOr(attrs, MetricKey(id), DefaultMetricText)), None)
  }

  /** The data the reader falls back to when the attribute request itself throws: 5.0 for every configured metric. */
  function DefaultPriorityData(ms: seq<Metric>, docId: string): (d: DocPriorityData)
    ensures d.docId == docId && d.metrics.Keys == MetricIds(ms)
    ensures forall id | id in d.metrics :: d.metrics[id] == DefaultMetricValue
  {
    DocPriorityData(docId, map id | id in MetricIds(ms) :: DefaultMetricValue, None)
  }

  /**
    Reading a block the kernel does not know gives the same data as the fallback for a failed
    request, since `parseFloat("5.0")` is 5.
   */
  lemma UnknownBlockReadsDefault(ms: seq<Metric>, docId: string, store: Store, parseReal: string -> real)
    requires docId !in store && parseReal(DefaultMetricText) == DefaultMetricValue
    ensures GetDocPriorityData(ms, docId, store, parseReal) == DefaultPriorityData(ms, docId)
  {
  }

  /** The priority of a document as the reviewer computes it. */
  function DocPriority(ms: seq<Metric>, docId: string, store: Store, parseReal: string -> real): (p: real)
    ensures TotalWeight(ms) <= 0.0 ==> p == 0.0
    ensures TotalWeight(ms) > 0.0 ==>
      p == WeightedValue(ms, GetDocPriorityData(ms, docId, store, parseReal).metrics) / TotalWeight(ms)
  {
    AllConfiguredPresent(ms, docId, store, parseReal);
    CalculatePriority(ms, GetDocPriorityData(ms, docId, store, parseReal))
  }

  lemma AllConfiguredPresent(ms: seq<Metric>, docId: string, store: Store, parseReal: string -> real)
    ensures PresentWeight(ms, GetDocPriorityData(ms, docId, store, parseReal).metrics) == TotalWeight(ms)
  {
    var d := GetDocPriorityData(ms, docId, store, parseReal);
    forall i | 0 <= i < |ms|
      ensures ms[i].id in d.metrics
    {
      assert ms[i].id in MetricIds(ms);
    }
    PresentWeightAllPresent(ms, d.metrics);
  }

  /**
    A document with no metric values stored (in particular an unknown block) has priority 5
    under any configuration with a positive total weight, and 0 otherwise.
   */
  lemma UnratedDocPriority(ms: seq<Metric>, docId: string, store: Store, parseReal: string -> real)
    requires parseReal(DefaultMetricText) == DefaultMetricValue
    requires forall i | 0 <= i < |ms| :: !HasStoredValue(AttrsOf(store, docId), ms[i].id)
    ensures TotalWeight(ms) > 0.0 ==> DocPriority(ms, docId, store, parseReal) == DefaultMetricValue
    ensures TotalWeight(ms) <= 0.0 ==> DocPriority(ms, docId, store, parseReal) == 0.0
  {
    var d := GetDocPriorityData(ms, docId, store, parseReal);
    AllConfiguredPresent(ms, docId, store, parseReal);
    PriorityOfUniformValues(ms, d, DefaultMetricValue);
  }

  /** A document's priority stays on the 0..10 scale when every value it reads does. */
  lemma DocPriorityInRange(ms: seq<Metric>, docId: string, store: Store, parseReal: string -> real)
    requires forall i | 0 <= i < |ms| :: ms[i].weight >= 0.0
    requires 0.0 <= parseReal(DefaultMetricText) <= 10.0
    requires forall i | 0 <= i < |ms| && HasStoredValue(AttrsOf(store, docId), ms[i].id) ::
      0.0 <= parseReal(store[docId][MetricKey(ms[i].id)]) <= 10.0
    ensures 0.0 <= DocPriority(ms, docId, store, parseReal) <= 10.0
  {
    var d := GetDocPriorityData(ms, docId, store, parseReal);
    forall i | 0 <= i < |ms| && ms[i].id in d.metrics
      ensures 0.0 <= d.metrics[ms[i].id] <= 10.0
    {
    }
    PriorityInRange(ms, d);
  }

  /** `Math.max(0, Math.min(10, value))`. */
  function ClampMetricValue(value: real): (c: real)
    ensures 0.0 <= c <= 10.0
    ensures 0.0 <= value <= 10.0 ==> c == value
    ensures value < 0.0 ==> c == 0.0
    ensures value > 10.0 ==> c == 10.0
  {
    var capped := if value < 10.0 then value else 10.0;
    if capped > 0.0 then capped else 0.0
  }

  lemma ClampIdempotent(value: real)
    ensures ClampMetricValue(ClampMetricValue(value)) == ClampMetricValue(value)
  {
  }

  /**
    The number `toFixed(1)` writes for a non-negative value: the nearest tenth, a tie
    going to the larger one.
   */
  function RoundToTenth(x: real): (r: real)
    ensures x - 0.05 < r <= x + 0.05
    ensures (10.0 * x).Floor as real == 10.0 * x ==> r == x
    ensures 0.0 <= x <= 10.0 ==> 0.0 <= r <= 10.0
    ensures (10.0 * r).Floor as real == 10.0 * r
  {
    var n := (10.0 * x + 0.5).Floor;
    assert n as real <= 10.0 * x + 0.5 < n as real + 1.0;
    assert 10.0 * (n as real / 10.0) == n as real;
    assert (10.0 * x).Floor as real == 10.0 * x ==> n == (10.0 * x).Floor;
    n as real / 10.0
  }

  /** Stores the clamped value, written with one decimal, under the metric's attribute. */
  function UpdateDocMetric(store: Store, docId: string, metricId: string, value: real, toFixed1: real -> string): (s: Store)
    ensures s.Keys == store.Keys
    ensures forall d | d in store && d != docId :: s[d] == store[d]
    ensures docId in store ==> s[docId].Keys == store[docId].Keys + {MetricKey(metricId)}
    ensures docId in store ==> s[docId][MetricKey(metricId)] == toFixed1(ClampMetricValue(value))
    ensures docId in store ==> forall k | k in store[docId] && k != MetricKey(metricId) :: s[docId][k] == store[docId][k]
    ensures docId !in store ==> s == store
  {
    SetAttr(store, docId, MetricKey(metricId), toFixed1(ClampMetricValue(value)))
  }

  /**
    Writing a metric and reading the document back: the written metric reads as the parsed
    one-decimal text of the clamped value, every other metric reads as before.
   */
  lemma MetricWriteThenRead(ms: seq<Metric>, store: Store, docId: string, metricId: string, value: real,
                            toFixed1: real -> string, parseReal: string -> real)
    requires docId in store && toFixed1(ClampMetricValue(value)) != ""
    ensures var before := GetDocPriorityData(ms, docId, store, parseReal).metrics;
      var after := GetDocPriorityData(ms, docId, UpdateDocMetric(store, docId, metricId, value, toFixed1), parseReal).metrics;
      && after.Keys == before.Keys
      && (metricId in after ==> after[metricId] == parseReal(toFixed1(ClampMetricValue(value))))
      && (forall id | id in after && id != metricId :: after[id] == before[id])
  {
    var s := UpdateDocMetric(store, docId, metricId, value, toFixed1);
    forall id | id != metricId
      ensures HasStoredValue(s[docId], id) == HasStoredValue(store[docId], id)
      ensures HasStoredValue(store[docId], id) ==> s[docId][MetricKey(id)] == store[docId][MetricKey(id)]
    {
      MetricKeyInjective(id, metricId);
    }
  }

  /**
    When `parseFloat` reads back the one-decimal text as the rounded number, a written value
    reads back as the clamped value rounded to a tenth: on the 0..10 scale and within 0.05 of it.
   */
  lemma MetricRoundTrip(ms: seq<Metric>, store: Store, docId: string, metricId: string, value: real,
                        toFixed1: real -> string, parseReal: string -> real)
    requires docId in store && metricId in MetricIds(ms)
    requires forall x: real | 0.0 <= x <= 10.0 :: toFixed1(x) != "" && parseReal(toFixed1(x)) == RoundToTenth(x)
    ensures var read := GetDocPriorityData(ms, docId, UpdateDocMetric(store, docId, metricId, value, toFixed1), parseReal)
        .metrics[metricId];
      && read == RoundToTenth(ClampMetricValue(value))
      && 0.0 <= read <= 10.0
      && ClampMetricValue(value) - 0.05 < read <= ClampMetricValue(value) + 0.05
  {
    MetricWriteThenRead(ms, store, docId, metricId, value, toFixed1, parseReal);
  }

  // ---------------------------------------------------------------- visits

  /** The recorded visit count: the attribute parsed, or "0" parsed when it is missing or empty. */
  function VisitCount(attrs: Attrs, parseInt: string -> int): (c: int)
    ensures VisitCountKey in attrs && attrs[VisitCountKey] != "" ==> c == parseInt(attrs[VisitCountKey])
    ensures !(VisitCountKey in attrs && attrs[VisitCountKey] != "") ==> c == parseInt(ZeroCountText)
  {
    parseInt(AttrOr(attrs, VisitCountKey, ZeroCountText))
  }

  /** A block's attributes after a visit: the count read, plus one, written back as decimal text. */
  function RecordVisit(attrs: Attrs, parseInt: string -> int): (a: Attrs)
    ensures a.Keys == attrs.Keys + {VisitCountKey}
    ensures a[VisitCountKey] == IntToString(VisitCount(attrs, parseInt) + 1)
    ensures forall k | k in attrs && k != VisitCountKey :: a[k] == attrs[k]
    ensures Visited(a)
  {
    attrs[VisitCountKey := IntToString(VisitCount(attrs, parseInt) + 1)]
  }

  /** Records a visit of one block; a block the kernel does not know is left as it is. */
  function UpdateVisitCount(store: Store, docId: string, parseInt: string -> int): (s: Store)
    ensures s.Keys == store.Keys
    ensures forall d | d in store && d != docId :: s[d] == store[d]
    ensures docId in store ==> s[docId] == RecordVisit(store[docId], parseInt)
    ensures docId !in store ==> s == store
  {
    var currentCount := VisitCount(AttrsOf(store, docId), parseInt);
    SetAttr(store, docId, VisitCountKey, IntToString(currentCount + 1))
  }

  /**
    A `parseInt` that reads back every integer's decimal text. JavaScript's does so for safe
    integers only, so the facts that rest on this hold for counts below 2^53.
   */
  ghost predicate ReadsIntegers(parseInt: string -> int)
  {
    forall i: int :: parseInt(IntToString(i)) == i
  }

  lemma ReadIntReadsIntegers()
    ensures ReadsIntegers(ReadInt)
  {
    forall i: int
      ensures ReadInt(IntToString(i)) == i
    {
      IntToStringRoundTrip(i);
    }
  }

  /** Recording a visit adds exactly one to the count read back. */
  lemma VisitCountIncrements(attrs: Attrs, parseInt: string -> int)
    requires ReadsIntegers(parseInt)
    ensures VisitCount(RecordVisit(attrs, parseInt), parseInt) == VisitCount(attrs, parseInt) + 1
  {
  }

  /** Recording a visit leaves every document's metric values as they were. */
  lemma VisitKeepsPriorityData(ms: seq<Metric>, store: Store, docId: string, other: string,
                               parseInt: string -> int, parseReal: string -> real)
    ensures GetDocPriorityData(ms, other, UpdateVisitCount(store, docId, parseInt), parseReal)
      == GetDocPriorityData(ms, other, store, parseReal)
  {
    var s := UpdateVisitCount(store, docId, parseInt);
    if other == docId && docId in store {
      forall id
        ensures HasStoredValue(s[docId], id) == HasStoredValue(store[docId], id)
        ensures HasStoredValue(store[docId], id) ==> s[docId][MetricKey(id)] == store[docId][MetricKey(id)]
      {
        MetricKeyNotVisitCount(id);
      }
    }
  }

  /** A block's attributes after `n` successive visits. */
  function VisitTimes(attrs: Attrs, parseInt: string -> int, n: nat): Attrs
    decreases n
  {
    if n == 0 then attrs else VisitTimes(RecordVisit(attrs, parseInt), parseInt, n - 1)
  }

  /** After `n` visits, the count read back has grown by `n`. */
  lemma {:induction false} VisitTimesCount(attrs: Attrs, parseInt: string -> int, n: nat)
    requires ReadsIntegers(parseInt)
    ensures VisitCount(VisitTimes(attrs, parseInt, n), parseInt) == VisitCount(attrs, parseInt) + n
    decreases n
  {
    if n > 0 {
      VisitCountIncrements(attrs, parseInt);
      VisitTimesCount(RecordVisit(attrs, parseInt), parseInt, n - 1);
    }
  }

  /**
    A document just visited is not a candidate again while the configuration excludes visited
    documents; otherwise the visit does not change whether it is one.
   */
  lemma VisitedNotReadmitted(c: RandomDocConfig, store: Store, docId: string, parseInt: string -> int)
    ensures var q, s := BuildCandidateQuery(c), UpdateVisitCount(store, docId, parseInt);
      && (ExcludesVisited(c) ==> !Admits(q, s, docId))
      && (!ExcludesVisited(c) ==> (Admits(q, s, docId) <==> docId in store))
  {
  }

  // ---------------------------------------------------------------- reset

  datatype ResetOutcome =
    | NothingToReset
    | ResetDone(count: nat)
    | ResetFailed(message: string)

  /** Clears the visit-count attribute of every listed block. */
  function ClearVisits(store: Store, docs: seq<string>): (s: Store)
    ensures s.Keys == store.Keys
    ensures forall d | d in store && d !in docs :: s[d] == store[d]
    ensures forall d | d in store && d in docs :: s[d] == store[d][VisitCountKey := ""]
  {
    if |docs| == 0 then store
    else SetAttr(ClearVisits(store, docs[..|docs| - 1]), docs[|docs| - 1], VisitCountKey, "")
  }

  /**
    Resets visit records: `found` is the answer to the query for visited documents in scope.
    A failed query changes nothing; an empty answer resets nothing; otherwise every listed
    document's visit count is cleared.
   */
  function ResetTodayVisits(store: Store, found: Result<seq<string>>): (r: (Store, ResetOutcome))
    ensures found.Failure? ==> r == (store, ResetFailed(found.error))
    ensures found.Success? && |found.value| == 0 ==> r == (store, NothingToReset)
    ensures found.Success? && |found.value| > 0 ==> r.1 == ResetDone(|found.value|)
    ensures r.0.Keys == store.Keys
    ensures found.Success? ==> forall d | d in store && d in found.value ::
      && r.0[d].Keys == store[d].Keys + {VisitCountKey}
      && !Visited(r.0[d])
      && forall k | k in store[d] && k != VisitCountKey :: r.0[d][k] == store[d][k]
    ensures forall d | d in store && !(found.Success? && d in found.value) :: r.0[d] == store[d]
  {
    match found
    case Failure(message) => (store, ResetFailed(message))
    case Success(docs) =>
      if |docs| == 0 then (store, NothingToReset)
      else (ClearVisits(store, docs), ResetDone(|docs|))
  }

  /** A document whose visit was cleared reads a count of `parseInt("0")` and is a candidate again. */
  lemma ResetReadmits(c: RandomDocConfig, store: Store, docs: seq<string>, docId: string, parseInt: string -> int)
    requires docId in store && docId in docs
    ensures var s := ResetTodayVisits(store, Success(docs)).0;
      Admits(BuildCandidateQuery(c), s, docId) && VisitCount(s[docId], parseInt) == parseInt(ZeroCountText)
  {
  }

  /**
    When the reset query finds every visited document in scope, no document in scope is left
    visited, so every one of them is a candidate again.
   */
  lemma ResetClearsScope(c: RandomDocConfig, store: Store, inScope: string -> bool, docs: seq<string>)
    requires forall d | d in store && inScope(d) && Visited(store[d]) :: d in docs
    ensures var s := ResetTodayVisits(store, Success(docs)).0;
      forall d | d in store && inScope(d) :: Admits(BuildCandidateQuery(c), s, d)
  {
  }

  // ---------------------------------------------------------------- choosing a document

  /** The message for an empty candidate answer. */
  function NoCandidatesMessage(c: RandomDocConfig): (m: string)
    ensures m == AllVisitedMessage <==> ExcludesVisited(c)
    ensures !ExcludesVisited(c) ==> m == NoMatchMessage
  {
    if ExcludesVisited(c) then AllVisitedMessage else NoMatchMessage
  }

  /** Every candidate with its priority, in the query's order. */
  function ScoreCandidates(ms: seq<Metric>, docs: seq<string>, store: Store, parseReal: string -> real): (items: seq<Scored>)
    ensures |items| == |docs|
    ensures forall i | 0 <= i < |docs| :: items[i].docId == docs[i]
    ensures forall i | 0 <= i < |docs| :: items[i].priority == DocPriority(ms, docs[i], store, parseReal)
  {
    seq(|docs|, i requires 0 <= i < |docs| => Scored(docs[i], DocPriority(ms, docs[i], store, parseReal)))
  }

  /** The chosen document and the store after its visit is recorded. */
  datatype Pick = Pick(docId: string, store: Store)

  /**
    Picks the next document from the candidate query's answer: a query failure or an empty
    answer is an error; up to five candidates are chosen among uniformly; more are scored
    against the store as it was and chosen by roulette wheel. The pick's visit is recorded.
   */
  method GetRandomDoc(c: RandomDocConfig, ms: seq<Metric>, candidates: Result<seq<string>>, store: Store, u: real,
                      parseReal: string -> real, parseInt: string -> int) returns (r: Result<Pick>)
    requires 0.0 <= u < 1.0
    ensures candidates.Failure? ==> r == Failure(candidates.error)
    ensures candidates == Success([]) ==> r == Failure(NoCandidatesMessage(c))
    ensures candidates.Success? && |candidates.value| > 0 ==>
      && r.Success?
      && r.value.docId in candidates.value
      && r.value.store == UpdateVisitCount(store, r.value.docId, parseInt)
    ensures candidates.Success? && 0 < |candidates.value| <= SmallCandidateLimit ==>
      r.Success? && r.value.docId == candidates.value[UniformIndex(u, |candidates.value|)]
    ensures (ExcludesVisited(c) && candidates.Success? && |candidates.value| > 0 &&
             Answers(BuildCandidateQuery(c), store, candidates.value)) ==>
      && r.Success?
      && r.value.docId in store
      && !Visited(store[r.value.docId])
      && Visited(r.value.store[r.value.docId])
      && !Admits(BuildCandidateQuery(c), r.value.store, r.value.docId)
    ensures candidates.Success? && |candidates.value| > SmallCandidateLimit ==>
      && r.Success?
      && exists k | 0 <= k < |candidates.value| ::
        WheelChoice(ScoreCandidates(ms, candidates.value, store, parseReal), u, k) && r.value.docId == candidates.value[k]
  {
    if candidates.Failure? {
      return Failure(candidates.error);
    }
    var docs := candidates.value;
    if |docs| == 0 {
      return Failure(NoCandidatesMessage(c));
    }
    var selectedDoc: string;
    if |docs| <= SmallCandidateLimit {
      var randomIndex := UniformIndex(u, |docs|);
      selectedDoc := docs[randomIndex];
    } else {
      var docPriorityList := ScoreCandidates(ms, docs, store, parseReal);
      var index;
      selectedDoc, index := RouletteWheelSelection(docPriorityList, u);
    }
    return Success(Pick(selectedDoc, UpdateVisitCount(store, selectedDoc, parseInt)));
  }

  /** Among more than five candidates, one whose priority is 0 is not picked (unless first on a zero draw) when others score. */
  lemma UnscoredCandidateSkipped(ms: seq<Metric>, docs: seq<string>, store: Store, parseReal: string -> real, u: real, k: nat)
    requires 0.0 <= u < 1.0 && k < |docs|
    requires forall i | 0 <= i < |docs| :: DocPriority(ms, docs[i], store, parseReal) >= 0.0
    requires TotalPriority(ScoreCandidates(ms, docs, store, parseReal)) > 0.0
    requires DocPriority(ms, docs[k], store, parseReal) == 0.0 && (k > 0 || u > 0.0)
    ensures !WheelChoice(ScoreCandidates(ms, docs, store, parseReal), u, k)
  {
    ZeroPriorityNeverChosen(ScoreCandidates(ms, docs, store, parseReal), u, k);
  }
}

=== FILE: Numerals.dfy ===
/**
  Decimal text for integers (an optional minus sign, then digits without leading
  zeros) and a reader that inverts it on those numerals. This is the text
  JavaScript's `Number.prototype.toString` writes for a safe integer, of magnitude
  at most 2^53 - 1; beyond that JavaScript's numbers lose precision, and from
  10^21 on they are written with an exponent.
 */
module Numerals {

  /** The character of one decimal digit. */
  function DigitChar(d: nat): (c: char)
    requires d < 10
    ensures '0' <= c <= '9' && c as int - '0' as int == d
  {
    "0123456789"[d]
  }

  predicate IsDigits(s: string)
  {
    forall i | 0 <= i < |s| :: '0' <= s[i] <= '9'
  }

  /** The value of a string of decimal digits, most significant first. */
  function DigitsValue(s: string): nat
    requires IsDigits(s)
  {
    if |s| == 0 then 0
    else DigitsValue(s[..|s| - 1]) * 10 + (s[|s| - 1] as int - '0' as int)
  }

  /** The shortest decimal numeral of `n`, without sign or leading zeros. */
  function NatToString(n: nat): (s: string)
    ensures |s| > 0 && IsDigits(s)
    decreases n
  {
    if n < 10 then [DigitChar(n)] else NatToString(n / 10) + [DigitChar(n % 10)]
  }

  /** Integer to decimal text: a minus sign for negative values, then the magnitude. */
  function IntToString(i: int): (s: string)
    ensures |s| > 0
    ensures i >= 0 ==> IsDigits(s)
    ensures i < 0 ==> s[0] == '-' && IsDigits(s[1..])
  {
    if i < 0 then "-" + NatToString(-i) else NatToString(i)
  }

  /** Reads an optional minus sign followed by decimal digits; other text reads as 0. */
  function ReadInt(s: string): int
  {
    if |s| > 0 && s[0] == '-' && IsDigits(s[1..]) then -(DigitsValue(s[1..]) as int)
    else if IsDigits(s) then DigitsValue(s)
    else 0
  }

  lemma {:induction false} NatToStringRoundTrip(n: nat)
    ensures DigitsValue(NatToString(n)) == n
    decreases n
  {
    if n >= 10 {
      NatToStringRoundTrip(n / 10);
      var s := NatToString(n);
      assert s[..|s| - 1] == NatToString(n / 10);
    }
  }

  /** Reading back the text of any integer gives that integer. */
  lemma {:induction false} IntToStringRoundTrip(i: int)
    ensures ReadInt(IntToString(i)) == i
  {
    if i < 0 {
      NegativeRoundTrip(i);
    } else {
      NonNegativeRoundTrip(i);
    }
  }

  lemma {:induction false} NonNegativeRoundTrip(i: int)
    requires i >= 0
    ensures ReadInt(IntToString(i)) == i
  {
    var s := NatToString(i);
    assert IntToString(i) == s;
    NatToStringRoundTrip(i);
    assert '0' <= s[0] <= '9';
  }

  lemma {:induction false} NegativeRoundTrip(i: int)
    requires i < 0
    ensures ReadInt(IntToString(i)) == i
  {
    var t := NatToString(-i);
    var s := "-" + t;
    assert IntToString(i) == s;
    assert s[0] == '-' && s[1..] == t;
    NatToStringRoundTrip(-i);
    assert ReadInt(s) == -(DigitsValue(t) as int);
  }
}

=== FILE: RandomDocConfig.dfy ===
/**
  The plugin's run-time configuration: the review and filter modes and the
  defaults a freshly constructed configuration holds. Fields the code reads
  through `||` or truthiness are optional, because a configuration loaded from
  an older stored copy may lack them.
 */
module RandomDocConfig {
  import opened Wrappers

  datatype ReviewMode = Incremental | Once

  datatype FilterMode = Notebook | Root

  /** The string each filter mode is stored as. */
  function FilterModeValue(m: FilterMode): string
  {
    match m
    case Notebook => "notebook"
    case Root => "root"
  }

  /** Comparing stored mode strings is comparing modes: the two filter modes are stored differently. */
  lemma FilterModeValueInjective(a: FilterMode, b: FilterMode)
    ensures FilterModeValue(a) == FilterModeValue(b) <==> a == b
  {
    if a != b {
      assert FilterModeValue(a)[0] != FilterModeValue(b)[0];
    }
  }

  datatype RandomDocConfig = RandomDocConfig(
    notebookId: Option<string>,
    showLoading: Option<bool>,
    customSqlEnabled: Option<bool>,
    sql: Option<string>,
    currentSql: Option<string>,
    reviewMode: ReviewMode,
    filterMode: Option<FilterMode>,
    rootId: Option<string>,
    incrementalConfigId: string,
    excludeTodayVisited: Option<bool>)

  /** The values the class's field initialisers assign before the constructor body runs. */
  function FieldInitializers(): RandomDocConfig
  {
    RandomDocConfig(
      notebookId := None,
      showLoading := None,
      customSqlEnabled := None,
      sql := None,
      currentSql := None,
      reviewMode := Incremental,
      filterMode := Some(Notebook),
      rootId := Some(""),
      incrementalConfigId := "incremental_config",
      excludeTodayVisited := Some(true))
  }

  /**
    The constructor body: a missing filter mode becomes Notebook, a missing root id becomes
    the empty string, and visited-exclusion is on unless it is explicitly false.
   */
  function Construct(c: RandomDocConfig): (r: RandomDocConfig)
    ensures r.filterMode.Some? && r.rootId.Some? && r.excludeTodayVisited.Some?
    ensures c.filterMode.Some? ==> r.filterMode == c.filterMode
    ensures c.rootId.Some? ==> r.rootId == c.rootId
    ensures r.excludeTodayVisited == Some(true) <==> c.excludeTodayVisited != Some(false)
    ensures r.(filterMode := c.filterMode, rootId := c.rootId, excludeTodayVisited := c.excludeTodayVisited) == c
  {
    c.(
      filterMode := Some(c.filterMode.GetOr(Notebook)),
      rootId := Some(c.rootId.GetOr("")),
      excludeTodayVisited := Some(c.excludeTodayVisited != Some(false)))
  }

  /** Running the constructor body again changes nothing. */
  lemma ConstructIdempotent(c: RandomDocConfig)
    ensures Construct(Construct(c)) == Construct(c)
  {
  }

  /** `new RandomDocConfig()`. */
  function NewRandomDocConfig(): (c: RandomDocConfig)
    ensures c.filterMode == Some(Notebook) && c.rootId == Some("")
    ensures c.excludeTodayVisited == Some(true)
    ensures c.reviewMode == Incremental
    ensures c.incrementalConfigId == "incremental_config"
    ensures c.notebookId == None
  {
    Construct(FieldInitializers())
  }

  /** JavaScript truthiness of the visited-exclusion flag: a missing flag counts as off. */
  function ExcludesVisited(c: RandomDocConfig): (on: bool)
    ensures c.excludeTodayVisited == None ==> !on
    ensures c.excludeTodayVisited == Some(false) ==> !on
    ensures c.excludeTodayVisited == Some(true) ==> on
  {
    c.excludeTodayVisited == Some(true)
  }
}

=== FILE: Roulette.dfy ===
/**
  Fitness-proportionate ("roulette wheel") choice of a document, with the
  random draw `Math.random()` passed in as a number `u` in [0, 1).
 */
module Roulette {

  /** A candidate document with its priority. */
  datatype Scored = Scored(docId: string, priority: real)

  /** `Math.floor(u * n)`: the index a uniform draw `u` picks among `n` items. */
  function UniformIndex(u: real, n: nat): (k: nat)
    requires 0.0 <= u < 1.0 && n > 0
    ensures k < n
    ensures k as real <= u * n as real < k as real + 1.0
  {
    assert u * n as real < n as real;
    (u * n as real).Floor
  }

  /** The sum of the first `k` priorities. */
  function PrefixSum(items: seq<Scored>, k: nat): real
    requires k <= |items|
  {
    if k == 0 then 0.0 else PrefixSum(items, k - 1) + items[k - 1].priority
  }

  function TotalPriority(items: seq<Scored>): real
  {
    PrefixSum(items, |items|)
  }

  /** `k` is the first index whose running sum reaches `r`. */
  predicate IsFirstReaching(items: seq<Scored>, r: real, k: nat)
  {
    && k < |items|
    && r <= PrefixSum(items, k + 1)
    && forall j | 1 <= j <= k :: PrefixSum(items, j) < r
  }

  /** No running sum reaches `r`. */
  predicate NoneReaching(items: seq<Scored>, r: real)
  {
    forall j | 1 <= j <= |items| :: PrefixSum(items, j) < r
  }

  /**
    The index the wheel must pick for the draw `u`: a uniform pick when the priorities sum
    to 0; otherwise the first index whose running sum reaches u times the total; the last
    index when none does.
   */
  predicate WheelChoice(items: seq<Scored>, u: real, k: nat)
    requires 0.0 <= u < 1.0 && |items| > 0
  {
    var total := TotalPriority(items);
    if total == 0.0 then k == UniformIndex(u, |items|)
    else IsFirstReaching(items, u * total, k) || (NoneReaching(items, u * total) && k == |items| - 1)
  }

  lemma DrawBelowTotal(u: real, total: real, r: real)
    requires 0.0 <= u < 1.0 && total > 0.0 && r == u * total
    ensures r < total
  {
  }

  /** Chooses a document by its share of the total priority. */
  method RouletteWheelSelection(items: seq<Scored>, u: real) returns (docId: string, index: nat)
    requires |items| > 0
    requires 0.0 <= u < 1.0
    ensures index < |items| && docId == items[index].docId
    ensures WheelChoice(items, u, index)
    ensures TotalPriority(items) > 0.0 ==> IsFirstReaching(items, u * TotalPriority(items), index)
  {
    var totalPriority := TotalPriority(items);
    if totalPriority == 0.0 {
      index := UniformIndex(u, |items|);
      docId := items[index].docId;
      return;
    }
    var random := u * totalPriority;
    var accumulated := 0.0;
    var k := 0;
    while k < |items|
      invariant k <= |items|
      invariant accumulated == PrefixSum(items, k)
      invariant forall j | 1 <= j <= k :: PrefixSum(items, j) < random
    {
      accumulated := accumulated + items[k].priority;
      if random <= accumulated {
        index := k;
        docId := items[k].docId;
        return;
      }
      k := k + 1;
    }
    assert NoneReaching(items, random);
    FallbackNeedsNegativeTotal(items, u);
    index := |items| - 1;
    docId := items[index].docId;
  }

  /** The wheel's choice is determined by the items and the draw. */
  lemma WheelChoiceUnique(items: seq<Scored>, u: real, k1: nat, k2: nat)
    requires 0.0 <= u < 1.0 && |items| > 0
    requires WheelChoice(items, u, k1) && WheelChoice(items, u, k2)
    ensures k1 == k2
  {
  }

  /** The last-item fallback needs a negative total: with a positive one, the last running sum reaches the draw. */
  lemma FallbackNeedsNegativeTotal(items: seq<Scored>, u: real)
    requires 0.0 <= u < 1.0 && |items| > 0
    requires NoneReaching(items, u * TotalPriority(items))
    ensures TotalPriority(items) < 0.0
  {
    DrawAtMostTotal(u, TotalPriority(items));
  }

  lemma DrawAtMostTotal(u: real, total: real)
    requires 0.0 <= u < 1.0
    ensures total >= 0.0 ==> u * total <= total
  {
  }

  predicate NonNegative(items: seq<Scored>)
  {
    forall i | 0 <= i < |items| :: items[i].priority >= 0.0
  }

  lemma {:induction false} PrefixSumMonotone(items: seq<Scored>, j: nat, k: nat)
    requires NonNegative(items) && j <= k <= |items|
    ensures PrefixSum(items, j) <= PrefixSum(items, k)
    decreases k - j
  {
    if j < k {
      PrefixSumMonotone(items, j, k - 1);
    }
  }

  /**
    With non-negative priorities and a positive total, item `i` is chosen exactly when the
    draw falls in its own slice of the wheel, (PrefixSum(i), PrefixSum(i + 1)] scaled by the
    total; the slice's width is the item's priority, so its chance is priority / total.
   */
  lemma SelectionInterval(items: seq<Scored>, u: real, i: nat)
    requires 0.0 <= u < 1.0 && |items| > 0 && i < |items|
    requires NonNegative(items) && TotalPriority(items) > 0.0
    ensures WheelChoice(items, u, i) <==>
      var r := u * TotalPriority(items);
      (i == 0 || PrefixSum(items, i) < r) && r <= PrefixSum(items, i + 1)
  {
    DrawSliceChoice(items, u, i);
  }

  /** The rule of the wheel, applied to the target `u * total` of a draw. */
  lemma DrawSliceChoice(items: seq<Scored>, u: real, i: nat)
    requires 0.0 <= u < 1.0 && i < |items|
    requires NonNegative(items) && TotalPriority(items) > 0.0
    ensures var r := u * TotalPriority(items);
      IsFirstReaching(items, r, i) || (NoneReaching(items, r) && i == |items| - 1) <==>
      (i == 0 || PrefixSum(items, i) < r) && r <= PrefixSum(items, i + 1)
  {
    var total := TotalPriority(items);
    var r := u * total;
    DrawBelowTotal(u, total, r);
    SliceChoice(items, r, i);
  }

  /** For a target below a positive total, the wheel's rule picks `i` exactly when the target lies in its slice. */
  lemma SliceChoice(items: seq<Scored>, r: real, i: nat)
    requires i < |items| && NonNegative(items) && r < TotalPriority(items)
    ensures IsFirstReaching(items, r, i) || (NoneReaching(items, r) && i == |items| - 1) <==>
      (i == 0 || PrefixSum(items, i) < r) && r <= PrefixSum(items, i + 1)
  {
    InSliceIsFirstReaching(items, r, i);
    TotalReaches(items, r);
  }

  /** A draw below the total is reached by the last running sum at the latest. */
  lemma TotalReaches(items: seq<Scored>, r: real)
    requires |items| > 0 && r < TotalPriority(items)
    ensures !NoneReaching(items, r)
  {
    assert PrefixSum(items, |items|) >= r;
  }

  lemma InSliceIsFirstReaching(items: seq<Scored>, r: real, i: nat)
    requires i < |items| && NonNegative(items)
    ensures IsFirstReaching(items, r, i) <==> (i == 0 || PrefixSum(items, i) < r) && r <= PrefixSum(items, i + 1)
  {
    if (i == 0 || PrefixSum(items, i) < r) && r <= PrefixSum(items, i + 1) {
      forall j | 1 <= j <= i
        ensures PrefixSum(items, j) < r
      {
        PrefixSumMonotone(items, j, i);
      }
    }
  }

  /** With non-negative priorities, an item of priority 0 is never chosen, except the first one on a draw of exactly 0. */
  lemma ZeroPriorityNeverChosen(items: seq<Scored>, u: real, i: nat)
    requires 0.0 <= u < 1.0 && |items| > 0 && i < |items|
    requires NonNegative(items) && TotalPriority(items) > 0.0
    requires items[i].priority == 0.0 && (i > 0 || u > 0.0)
    ensures !WheelChoice(items, u, i)
  {
    SelectionInterval(items, u, i);
    if i == 0 {
      assert u * TotalPriority(items) > 0.0;
    }
  }
}

=== FILE: Wrappers.dfy ===
/** Failure-carrying datatypes shared by the rest of the model. */
module Wrappers {

  /** An optional value; `None` stands for a JavaScript `undefined`. */
  datatype Option<+T> = None | Some(value: T) {

    /** The value if present, otherwise `default`. */
    function GetOr(default: T): T {
      match this
      case Some(v) => v
      case None => default
    }
  }

  /** The outcome of an operation that may throw; `Failure` carries the error message. */
  datatype Result<+R> = Success(value: R) | Failure(error: string)
}
